=== FILE: README.md ===
# dune-updater: the PKP scanner and table builders in Dafny

dune-updater keeps a handful of Dune Analytics tables up to date for Lit
Protocol. Its one script (`index.js`) does the following:

- It scans a Lit blockchain (`chronicle` or `yellowstone`) for `PKPMinted`
  events of the `datil_*` PKP contracts.
- For every minted key it derives six Bitcoin addresses and reads its ETH
  address.
- It renders the records as a PKP table, plus a two-row table of the block
  range scanned.
- It pages through a wallet report API and tags each wallet with its key type.
- It rewrites the header line of the wrapped-key tables it downloads.

This project models that logic in Dafny and proves what it promises:

- The JSON-RPC calls, the wallet indexer and the Bitcoin library calls become
  parameters that may fail.
- The chain head is a value that may be missing.
- S3, Dune and the clock are left out.

| Dafny module | file | what it models |
|---|---|---|
| `Outcomes` | outcomes.dfy | `Option` and `Result` |
| `Text` | text.dfy | JavaScript `startsWith`, `split`, `join`, and the decimal text of a number |
| `AddressCodec` | address_codec.dfy | `calculateBtcAddresses`: strip `0x`, decide between point compression and the raw key, hex decoding as `Buffer.from(…, "hex")` does it, the x-only taproot key; the six encodings are parameters |
| `BlockChunks` | block_chunks.dfy | the block ranges `fetchPKPs` queries, and `BLOCK_INTERVAL`'s fallback to 25000 |
| `ResultAggregator` | result_aggregator.dfy | `cleanArray`, `convertToCSV` and the blocks table of `scan` |
| `RangeScanner` | range_scanner.dfy | `fetchPKPs` (three nested loops, one method per level) and `scan` |
| `WalletReport` | wallet_report.dfy | `callGeniusAPI`: offset paging, key-type tagging, the wallet table |
| `WkHeader` | wk_header.dfy | the header rewrite in `uploadWKTableData` |

Each loop of the source is a method with loop invariants, proved equal to a
recursive specification function:

- `CollectEvents`, `CollectNetwork` and `FetchPkps` in `RangeScanner`;
- `CallGeniusApi` in `WalletReport`.

The header rewrite has no loop. `RewriteHeader` in `WkHeader` overwrites the
first element of an array of lines in place, and is proved equal to the
specification function `WithHeader`.

The lemmas state the properties of those specification functions:

- coverage and order of the chunks;
- which failures drop what;
- the all-or-nothing row filter;
- the tables' exact text, and that it reads back.

Where the code and its documentation differ, the model follows the code:

- An unknown `NETWORK` throws out of `fetchPKPs` (index.js:406-409). "all"
  expands to the three configured networks and never throws. Any other
  selector is a single name, so the throw happens on the first pass of the
  network loop, before any log query, while `results` is still empty
  (`RejectedSelectionIsOneName`). A scan therefore never throws after
  collecting records for an earlier network, and no record is lost.
  `FetchPkpsSpec` returns the error.
- `convertToCSV` with no rows produces the header followed by one newline.
  The wallet table with no rows is the header alone, without a newline
  (`ToCsvEmpty`, `WalletCsvEmpty`).
- A failure of `calculateBtcAddresses` happens outside the inner `try`
  (index.js:444-445). It abandons the rest of its chunk, like a failed log
  query, rather than skipping one token.

## Model

| member | source | states |
|---|---|---|
| Text.Split | index.js:789 | `split` never returns an empty array: there is always a `lines[0]` to overwrite |
| Text.JoinSplit | index.js:789-794 | joining the pieces of a split with the same separator gives back the original text |
| Text.SplitJoin | index.js:580-581 | when no piece holds the separator, splitting a join recovers the pieces |
| Text.SplitPiecesAvoid | index.js:789 | no piece of a split contains the separator |
| Text.NatToStringRoundTrip | index.js:660-661 | the decimal text of a block number parses back to that number |
| Text.DecimalHasNoSeparators | index.js:660-661 | a decimal number contains neither a comma nor a newline |
| Text.StartsWith | index.js:490 | JavaScript's `startsWith`: the prefix fits and the text begins with it (also index.js:495 and 158) |
| Text.Join | index.js:580 | `join` with a one-character separator: no parts give the empty text, one part is itself, otherwise one separator between each two parts |
| Text.NatToString | index.js:442 | `toString()` of a natural: its decimal text, at least one character long and made of digits only |
| AddressCodec.HexDecode | index.js:499-503 | `Buffer.from(hex)` yields at most one byte per two characters |
| AddressCodec.HexRoundTrip | index.js:499-503 | decoding the hex text of a byte string gives back the bytes |
| AddressCodec.HexStartsWith04 | index.js:495 | the hex text of a key starts with "04" exactly when its first byte is 4 |
| AddressCodec.StripHexPrefix | index.js:490-492 | a key starting with "0x" loses exactly that prefix; any other key is unchanged |
| AddressCodec.StripRemovesOnePrefix | index.js:490-492 | only one "0x" is removed; a second one stays |
| AddressCodec.HexEncode | index.js:443 | the lower-case hex text of a byte string, two characters per byte; an event's `pubkey` arrives as this text after "0x" |
| AddressCodec.KeyBuffer | index.js:489-504 | one leading "0x" is stripped; the decoded key goes to `compress` exactly when the text starts with "04", otherwise it is decoded and used unchanged |
| AddressCodec.XOnly | index.js:527-530 | the taproot internal key is the key buffer minus its first byte, or empty for an empty buffer |
| AddressCodec.Derive | index.js:489-545 | the six addresses come from the same key buffer, with taproot from its x-only part; there is a result exactly when compression (if used) and all six encodings succeed |
| AddressCodec.CompressedKeyUsedUnchanged | index.js:495-504 | a key whose first byte is not 4 reaches the encoders byte for byte, with or without "0x" |
| AddressCodec.UncompressedKeyIsCompressed | index.js:495-501 | a key whose first byte is 4 is replaced by its point compression, with or without "0x" |
| AddressCodec.UncompressedAgreesWithCompressed | index.js:495-504 | an uncompressed key and its compression derive the same six addresses |
| BlockChunks.EffectiveInterval | index.js:390 | an unset or unparsable value, or 0, gives 25000, and any other value is used as given; the width is never 0, and is positive unless the setting is negative |
| BlockChunks.Chunks | index.js:418-423 | the `[fromBlock, toBlock]` pairs of the block loop in order: from the start block in steps of the width while it is at most the end block, each ending at the smaller of its start plus width minus one and the end block |
| BlockChunks.ChunkAt | index.js:418-423 | chunk k is `[from + k*w, min(from + k*w + w - 1, end)]` |
| BlockChunks.ChunkCount | index.js:418-423 | there are ceil((end - from + 1) / w) chunks, and none when from > end |
| BlockChunks.ChunksWithinRange | index.js:418-423 | every chunk is non-empty, lies inside `[from, end]` and is at most w blocks wide |
| BlockChunks.ChunksAdjacent | index.js:418-423 | each chunk but the last is exactly w blocks and is followed by the next block |
| BlockChunks.ChunksEnds | index.js:418-423 | the first chunk starts at `from` and the last ends at `end`; an empty range has no chunks |
| BlockChunks.ChunksContiguous | index.js:418-423 | the chunks tile `[from, end]`: the three facts above together |
| BlockChunks.ChunksAscending | index.js:418-423 | the chunks are in ascending order and do not overlap |
| BlockChunks.ChunksCoverExactlyOnce | index.js:418-423 | a block is in some chunk exactly when it is in `[from, end]`, and then in only one |
| BlockChunks.CoveringChunk | index.js:418-423 | gives the index of the chunk that holds a given block of the range |
| BlockChunks.ExampleChunks | index.js:418-423 | blocks 100..260 in chunks of 100 are queried as [100, 199] and [200, 260] |
| ResultAggregator.Clean | index.js:547-570 | never more rows than records, and every row kept has no empty value |
| ResultAggregator.CompleteIffEveryValuePresent | index.js:549-553 | a record is kept exactly when every one of its values is not "", null or undefined |
| ResultAggregator.RenameRoundTrip | index.js:556-567 | the rename carries every value over unchanged: a kept record can be rebuilt from its row, and back |
| ResultAggregator.CleanAppend | index.js:547-570 | cleaning works record by record: cleaning a concatenation concatenates the cleaned parts and the rejection counts |
| ResultAggregator.CleanCount | index.js:549-553 | the output has exactly as many rows as the input minus the rejected records |
| ResultAggregator.CleanKeepsCompleteRecords | index.js:547-570 | when every record is complete, row i is record i renamed |
| ResultAggregator.CleanRowsComeFromRecords | index.js:547-570 | every row emitted is the rename of some complete input record |
| ResultAggregator.Rename | index.js:556-567 | the rename of one complete record into the ten output columns, each value carried over unchanged |
| ResultAggregator.Line | index.js:577-578 | one row's ten values in column order, separated by commas |
| ResultAggregator.ToCsv | index.js:572-582 | `convertToCSV`: the header, a newline, then the row lines joined by newlines, so no rows leave a trailing newline |
| ResultAggregator.BlocksCsv | index.js:659-662 | the blocks table: the header, `start,` with the start block and `end,` with the end block on three lines, without a trailing newline |
| ResultAggregator.Lines | index.js:575-580 | one line per row, in row order |
| ResultAggregator.PkpHeaderColumns | index.js:573-574 | the header is a single line and splits into the ten column names |
| ResultAggregator.ToCsvEmpty | index.js:572-582 | with no rows the table is the header and one newline |
| ResultAggregator.LineFields | index.js:577-578 | when no value holds a comma, a line splits back into the row's ten values |
| ResultAggregator.ToCsvStartsWithHeader | index.js:581 | whatever the rows hold, the first line of the table is the header |
| ResultAggregator.ToCsvLines | index.js:572-582 | when no value holds a newline, the lines are the header and then one per row in order (or one empty line when there are no rows) |
| ResultAggregator.BlocksRoundTrip | index.js:659-662 | the blocks table reads back as exactly the start and end block it was written with |
| RangeScanner.Names | index.js:400-401 | `Object.keys` lists the table's names in declaration order |
| RangeScanner.ContractAddress | index.js:406 | `networks[network]`: the address listed for a name, and the empty text for a name not in the table |
| RangeScanner.SelectNetworks | index.js:400-401 | `networksToUse`: every network name in table order for "all", otherwise the selector alone |
| RangeScanner.MakeRecord | index.js:453-464 | the record pushed for one event: blockchain, network, decimal token id, ETH address and the six derived addresses |
| RangeScanner.EventRecords | index.js:441-471 | the records of one query's events in order: a derivation that throws ends the chunk there, an event whose ETH address cannot be read is skipped, every other event adds one record |
| RangeScanner.ChunkRecords | index.js:431-477 | the records of one chunk: none when its log query fails, otherwise its events' records |
| RangeScanner.ChunksRecords | index.js:418-481 | the records of a run of chunks, concatenated in chunk order |
| RangeScanner.NetworksRecords | index.js:404-482 | for each selected network in order, the records of every chunk of the range against that network's contract, concatenated |
| RangeScanner.FetchPkpsSpec | index.js:379-487 | `fetchPKPs`: an empty blockchain is an error, a selected name without an address is an error, otherwise the cleaned records of all selected networks |
| RangeScanner.ScanSpec | index.js:628-665 | `scan`: an unlisted blockchain or an unreadable head is an error, a head equal to the start block means no new blocks, otherwise `fetchPKPs` with NETWORK defaulting to "all", then its error or both tables |
| RangeScanner.CollectEvents | index.js:441-471 | the event loop appends exactly the records `EventRecords` specifies to `results` |
| RangeScanner.CollectNetwork | index.js:418-481 | the block loop of one network appends the records of every chunk, chunk after chunk |
| RangeScanner.FetchPkps | index.js:379-487 | `fetchPKPs` returns or throws exactly `FetchPkpsSpec`: the guards, the network loop, then `cleanArray` |
| RangeScanner.Scan | index.js:628-665 | `scan` resolves or throws exactly `ScanSpec` |
| RangeScanner.LookupFindsListedNames | index.js:403-409 | when every address is non-empty, a lookup succeeds exactly for the names in the table |
| RangeScanner.AllSelectsEveryNetwork | index.js:400-401 | "all" selects datil_prod, datil_dev and datil_test in that order, each with an address |
| RangeScanner.RejectedSelectionIsOneName | index.js:400-409 | a selection the network loop rejects is one name without a contract address, so the throw comes on the first pass, before any query |
| RangeScanner.SelectionAccepted | index.js:400-409 | the network loop completes exactly when the selector is "all" or a configured network |
| RangeScanner.FetchOutcome | index.js:393-409 | `fetchPKPs` throws exactly for a missing blockchain or an unknown network, and returns rows otherwise |
| RangeScanner.SingleNetworkScan | index.js:400-401 | a single configured network is the only one scanned |
| RangeScanner.EventRecordsSplit | index.js:441-471 | while every derivation succeeds, the records of a prefix of the events and of the rest concatenate |
| RangeScanner.EventFailureAbandonsChunk | index.js:441-477 | an event whose addresses cannot be derived ends its chunk: only the records of the events before it remain |
| RangeScanner.EthFailureSkipsToken | index.js:446-470 | a token whose ETH address cannot be read is left out, and the events after it are still recorded |
| RangeScanner.EventRecordsAllSucceed | index.js:441-471 | when every call succeeds there is one record per event, in event order, holding that event's values |
| RangeScanner.FailedChunkContributesNothing | index.js:431-477 | a chunk whose log query fails adds nothing; the chunks before and after it are still recorded |
| RangeScanner.ExampleFailedChunk | index.js:418-477 | for blocks 100..260 in chunks of 100, when [200, 260] fails only [100, 199] is recorded |
| RangeScanner.EventRecordsTagged | index.js:453-464 | every record of a chunk names the blockchain and network being scanned |
| RangeScanner.ChunksRecordsTagged | index.js:418-477 | every record of a network's block loop names that blockchain and network |
| RangeScanner.NetworksRecordsTagged | index.js:403-482 | every record names the scanned blockchain and one of the selected networks |
| RangeScanner.ScanNoNewBlocks | index.js:643-646 | `scan` reports no new blocks exactly when the blockchain is known and the head equals the start block |
| RangeScanner.ScanDefaultsToAll | index.js:647 | an unset NETWORK scans exactly as "all" does |
| RangeScanner.ScanTables | index.js:657-662 | a completed scan's blocks table reads back as the scanned range, and its PKP table starts with the header |
| RangeScanner.UnknownBlockchainRefused | index.js:631-635 | for every name: an unlisted blockchain is refused as unknown before anything is queried, and a listed one never is |
| WalletReport.KeyType | index.js:156-161 | "secp256k1" exactly for addresses starting with "0x", "ed25519" for all others |
| WalletReport.Tag | index.js:156-161 | one row with the key type of its address added, its address and value unchanged |
| WalletReport.Collected | index.js:128-152 | the rows the paging loop gathers from page k on: a failed page adds nothing and stops, a short page is added and stops, a full page is added and the next offset follows |
| WalletReport.WalletCsv | index.js:163-169 | the header line and then one line per tagged row, joined by newlines without a trailing newline |
| WalletReport.TagAll | index.js:156-161 | every row keeps its address and value, in order, and gains its address's key type |
| WalletReport.WalletLines | index.js:165-168 | one line per row, in row order |
| WalletReport.CallGeniusApi | index.js:124-169 | requests offsets 0, 1000, 2000, … in order; every page before the last came back full, and the last failed or was short; the table is `WalletCsv` of the rows collected |
| WalletReport.CollectedIgnoresBound | index.js:128-152 | the rows collected do not depend on which stopping page bounds the loop |
| WalletReport.CollectedIsPages | index.js:128-152 | the rows collected are the full pages in order, then the rows of the page that stopped the loop (none if it failed) |
| WalletReport.FailureKeepsEarlierPages | index.js:148-151 | a failed request ends the loop and keeps every row of the earlier pages |
| WalletReport.ExampleTwoFullPages | index.js:128-152 | two full pages and a failed third give the rows of the first two, in order |
| WalletReport.WalletCsvEmpty | index.js:163-169 | with no rows the table is the header alone, without a newline |
| WalletReport.WalletCsvLines | index.js:163-169 | when no value holds a newline, the table's lines are the header and one line per row, in order |
| WalletReport.WalletLineFields | index.js:166-167 | when no value holds a comma, a line splits back into address, value and key type |
| WalletReport.WalletHeaderColumns | index.js:164 | the header splits into its three column names |
| WkHeader.RewriteHeader | index.js:789-794 | the result is the new header followed by everything from the first newline of the download on |
| WkHeader.WithHeader | index.js:789-794 | the new header followed by everything from the first newline of the download on: the first line is replaced and the rest is kept as is |
| WkHeader.RewriteKeepsLaterLines | index.js:789-794 | the result has as many lines as the download; the first is the new header and every later line is unchanged and in order |
| WkHeader.RewriteIdempotent | index.js:789-794 | rewriting an already rewritten table changes nothing |
| WkHeader.SingleLineBecomesHeader | index.js:789-794 | a download without a newline, the empty one included, becomes the header alone |

The same rewrite appears at index.js:859-864, 929-934 and 999-1004, and
`WkHeader` models all four.

## Left out

- The Dune HTTP calls and their orchestration: `updateGeniusWkTableData`,
  `updateYellowstonePkpTableData`, `pushToDune` and the `push*CSVToDune`
  helpers. They are request/response I/O with an early return on error.
- S3 listing and download in `uploadWKTableData`. Only the rewrite of the
  downloaded text is modelled.
- `createTable.js` is not part of this model. It is a single fixed HTTP request.
- The JSON-RPC provider (`getBlockNumber`, `queryFilter`, `getEthAddress`) is a
  parameter.
  - `getBlockNumber` is `Scan`'s `head`.
  - The other two are the fields of `Chain`.
  - The RPC URL overrides (`CHRONICLE_RPC_URL`, `YELLOWSTONE_RPC_URL`) only
    choose the endpoint and are not modelled.
- Point compression, hash160, SHA-256, Base58Check, bech32, bech32m and the
  taproot tweak are library code, and their outputs are not computed.
  - The fields of `Encoders` are `compress` and the six payment encodings,
    each of which may fail.
  - The hashes, the checksummed encodings and the tweak happen inside those
    payment fields.
- The 2-second pause between log queries (index.js:480) only affects timing.
- `getFormattedDate`, `writePkpCSV` and `writeBlocksCSV`: the clock and the
  file system. `writeBlocksCSV` writes the same text `BlocksCsv` describes.
- The log messages (`console.log`, `console.error`).
- RangeScanner.EventRecords: the scanner takes address derivation as a
  parameter (`Deriver`), and the top-level members pass it the modelled
  `calculateBtcAddresses`. Lemmas about one chunk hold for any derivation.
- WalletReport.Wallet: `total_usd_value` may be a JSON number. It is carried
  as the text the template string prints, without modelling JavaScript's
  number formatting.
- WalletReport.CallGeniusApi: the loop is only proved for an indexer that
  eventually returns a short or failed page (the ghost bound `last`). Against
  an indexer that always returns full pages the source loops forever.
  - Rows without a string `wallet_address` make `startsWith` throw, which is
    not modelled.
- RangeScanner.ContractAddress: tables are association lists, so names that
  JavaScript objects inherit, such as "constructor", do not resolve to
  anything.
  - For `blockchains` the outcome is the same. With "constructor",
    "toString" or "__proto__" as `BLOCKCHAIN`, the destructuring at
    index.js:631 succeeds with `rpcUrl` undefined, and `scan` throws at
    index.js:633.
  - Observation on the source (not executed): `selectedBlockchain` is not
    declared in `scan`. What index.js:633 throws is therefore a
    ReferenceError, not the intended "Invalid blockchain" message.
  - Either way `scan` fails before querying anything, which the model
    reports as `UnknownBlockchain`.
- RangeScanner.ScanSpec:
  - `scan`'s `startBlock == endBlock` is JavaScript's loose equality, between
    a value read from a table and a number. The model compares two naturals.
    It treats `startBlock` as a number everywhere. A string `startBlock` would
    make `fromBlock += blockInterval` (index.js:421) concatenate text, and the
    model does not capture that.
  - A name that is neither listed nor inherited makes the destructuring at
    index.js:631 throw. An inherited name throws at index.js:633 (see
    RangeScanner.ContractAddress above). The model reports both as
    `UnknownBlockchain`.
- BlockChunks.Chunks: a negative `BLOCK_INTERVAL` makes the source's block
  loop (index.js:418-422) run forever when `startBlock <= endBlock`.
  - RangeScanner.FetchPkpsSpec, `FetchPkps`, `ScanSpec` and `Scan` require a
    positive width for every input.
  - Runs with a negative width that end without looping are therefore not
    modelled. These are an empty range, the no-new-blocks return
    (index.js:643-646), and the throws at index.js:393-397, 406-409 and
    631-633.
  - `EffectiveInterval` states when the width is positive.
- Integer widths: block numbers, token ids and offsets are unbounded
  naturals. The source's JavaScript numbers and BigNumbers do not overflow at
  the sizes involved.

=== FILE: address_codec.dfy ===
/**
 * Public-key normalisation in front of the six Bitcoin address encodings
 * (`calculateBtcAddresses`). The elliptic-curve point compression and the six
 * payment encodings are library code; they are the fields of `Encoders`, each
 * of which may throw (`None`).
 */
module AddressCodec {
  import opened Outcomes
  import opened Text

  type Byte = b: int | 0 <= b < 256
  type Bytes = seq<Byte>

  /** The six addresses derived from one public key. */
  datatype AddressSet = AddressSet(
    p2pkh: string,
    p2wpkh: string,
    p2shP2wpkh: string,
    p2tr: string,
    p2wsh: string,
    p2sh: string)

  /**
   * The library calls: `compress` is `ecc.pointCompress(key, true)`; each
   * payment takes the key buffer and yields the `.address` of the
   * corresponding `bitcoin.payments` object on the Bitcoin main network
   * (`p2tr` takes the x-only internal key).
   */
  datatype Encoders = Encoders(
    compress: Bytes -> Option<Bytes>,
    p2pkh: Bytes -> Option<string>,
    p2wpkh: Bytes -> Option<string>,
    p2shP2wpkh: Bytes -> Option<string>,
    p2tr: Bytes -> Option<string>,
    p2wsh: Bytes -> Option<string>,
    p2sh: Bytes -> Option<string>)

  // ---------------------------------------------------------------- hex text

  function HexDigitValue(ch: char): (r: Option<nat>)
    ensures r.Some? ==> r.value < 16
  {
    if '0' <= ch <= '9' then Some(ch as int - '0' as int)
    else if 'a' <= ch <= 'f' then Some(ch as int - 'a' as int + 10)
    else if 'A' <= ch <= 'F' then Some(ch as int - 'A' as int + 10)
    else None
  }

  function HexDigit(n: nat): (ch: char)
    requires n < 16
    ensures HexDigitValue(ch) == Some(n)
  {
    "0123456789abcdef"[n]
  }

  /**
   * `Buffer.from(s, "hex")`: one byte per pair of hex digits, stopping at the
   * first pair holding a character that is not a hex digit; an unpaired last
   * character is dropped.
   */
  function HexDecode(s: string): (r: Bytes)
    ensures |r| <= |s| / 2
    decreases |s|
  {
    if |s| < 2 then []
    else
      match (HexDigitValue(s[0]), HexDigitValue(s[1]))
      case (Some(hi), Some(lo)) => [hi * 16 + lo] + HexDecode(s[2..])
      case _ => []
  }

  /** Lower-case hex text of a byte string, as an event's `bytes` argument arrives. */
  function HexEncode(b: Bytes): (r: string)
    ensures |r| == 2 * |b|
  {
    if b == [] then [] else [HexDigit(b[0] / 16), HexDigit(b[0] % 16)] + HexEncode(b[1..])
  }

  lemma {:induction false} HexRoundTrip(b: Bytes)
    ensures HexDecode(HexEncode(b)) == b
  {
    if b != [] {
      HexRoundTrip(b[1..]);
      var s := HexEncode(b);
      assert s[2..] == HexEncode(b[1..]);
      assert b[0] / 16 * 16 + b[0] % 16 == b[0];
      assert [b[0]] + b[1..] == b;
    }
  }

  /** The hex text of a byte string starts with "04" exactly when its first byte is 4. */
  lemma HexStartsWith04(b: Bytes)
    ensures StartsWith(HexEncode(b), "04") <==> |b| > 0 && b[0] == 4
  {
    if |b| > 0 {
      var s := HexEncode(b);
      assert s[..2] == [HexDigit(b[0] / 16), HexDigit(b[0] % 16)];
      HexPairOf4(b[0]);
    }
  }

  /** The two hex digits of a byte are "04" exactly for the byte 4. */
  lemma HexPairOf4(d: Byte)
    ensures [HexDigit(d / 16), HexDigit(d % 16)] == "04" <==> d == 4
  {
    if d == 4 {
      assert HexDigit(0) == '0' && HexDigit(4) == '4';
    } else {
      assert HexDigitValue('0') == Some(0) && HexDigitValue('4') == Some(4);
      assert d / 16 * 16 + d % 16 == d;
    }
  }

  // ---------------------------------------------------------------- normalisation

  /** A single leading "0x" is removed; anything else is left as it is. */
  function StripHexPrefix(key: string): (r: string)
    ensures StartsWith(key, "0x") ==> key == "0x" + r
    ensures !StartsWith(key, "0x") ==> r == key
  {
    if StartsWith(key, "0x") then key[2..] else key
  }

  /**
   * The key buffer the encodings receive: an uncompressed key (hex starting
   * with "04") is point-compressed, any other key is decoded and used as it is.
   */
  function KeyBuffer(publicKey: string, enc: Encoders): Option<Bytes> {
    var key := StripHexPrefix(publicKey);
    if StartsWith(key, "04") then enc.compress(HexDecode(key)) else Some(HexDecode(key))
  }

  /** `pubKeyBuffer.slice(1)`: the x-only key taproot is built from. */
  function XOnly(buffer: Bytes): (r: Bytes)
    ensures |buffer| > 0 ==> [buffer[0]] + r == buffer
    ensures |buffer| == 0 ==> r == []
  {
    if |buffer| == 0 then [] else buffer[1..]
  }

  /**
   * `calculateBtcAddresses`: the six addresses of one key, or `None` when the
   * compression or any one encoding throws (no partial address set).
   */
  function Derive(publicKey: string, enc: Encoders): (r: Option<AddressSet>)
    ensures r.Some? <==>
      KeyBuffer(publicKey, enc).Some? &&
      var b := KeyBuffer(publicKey, enc).value;
      enc.p2pkh(b).Some? && enc.p2wpkh(b).Some? && enc.p2shP2wpkh(b).Some? &&
      enc.p2tr(XOnly(b)).Some? && enc.p2wsh(b).Some? && enc.p2sh(b).Some?
    ensures r.Some? ==>
      var b := KeyBuffer(publicKey, enc).value;
      r.value == AddressSet(enc.p2pkh(b).value, enc.p2wpkh(b).value, enc.p2shP2wpkh(b).value,
                            enc.p2tr(XOnly(b)).value, enc.p2wsh(b).value, enc.p2sh(b).value)
  {
    match KeyBuffer(publicKey, enc)
    case None => None
    case Some(b) =>
      match (enc.p2pkh(b), enc.p2wpkh(b), enc.p2shP2wpkh(b), enc.p2tr(XOnly(b)), enc.p2wsh(b), enc.p2sh(b))
      case (Some(a1), Some(a2), Some(a3), Some(a4), Some(a5), Some(a6)) =>
        Some(AddressSet(a1, a2, a3, a4, a5, a6))
      case _ => None
  }

  // ---------------------------------------------------------------- properties

  /** Only one "0x" is stripped: a key written "0x0x…" keeps its second "0x". */
  lemma StripRemovesOnePrefix(rest: string)
    ensures StripHexPrefix("0x" + rest) == rest
  {
    assert ("0x" + rest)[..2] == "0x";
  }

  /** A key whose first byte is not 4 reaches the encodings byte for byte, with or without "0x". */
  lemma CompressedKeyUsedUnchanged(b: Bytes, enc: Encoders)
    requires |b| > 0 && b[0] != 4
    ensures KeyBuffer(HexEncode(b), enc) == Some(b)
    ensures KeyBuffer("0x" + HexEncode(b), enc) == Some(b)
  {
    var s := HexEncode(b);
    HexStartsWith04(b);
    HexRoundTrip(b);
    StripRemovesOnePrefix(s);
    assert s[..2] != "0x" by {
      assert s[0] == HexDigit(b[0] / 16) && s[1] == HexDigit(b[0] % 16);
      assert HexDigitValue('x') == None;
    }
  }

  /** A key whose first byte is 4 is replaced by its point compression. */
  lemma UncompressedKeyIsCompressed(b: Bytes, enc: Encoders)
    requires |b| > 0 && b[0] == 4
    ensures KeyBuffer(HexEncode(b), enc) == enc.compress(b)
    ensures KeyBuffer("0x" + HexEncode(b), enc) == enc.compress(b)
  {
    var s := HexEncode(b);
    HexStartsWith04(b);
    HexRoundTrip(b);
    StripRemovesOnePrefix(s);
    assert s[..2] == "04";
  }

  /**
   * The uncompressed form of a point and its compressed form give the same
   * six addresses: deriving from either reaches the encodings with the same buffer.
   */
  lemma UncompressedAgreesWithCompressed(u: Bytes, c: Bytes, enc: Encoders)
    requires |u| > 0 && u[0] == 4
    requires |c| > 0 && c[0] != 4
    requires enc.compress(u) == Some(c)
    ensures Derive("0x" + HexEncode(u), enc) == Derive("0x" + HexEncode(c), enc)
    ensures Derive(HexEncode(u), enc) == Derive(HexEncode(c), enc)
  {
    UncompressedKeyIsCompressed(u, enc);
    CompressedKeyUsedUnchanged(c, enc);
  }
}

=== FILE: block_chunks.dfy ===
/**
 * The block ranges `fetchPKPs` queries: `[startBlock, endBlock]` cut into
 * consecutive chunks of `blockInterval` blocks, the last one clamped to
 * `endBlock`.
 */
module BlockChunks {
  import opened Outcomes

  /** The width used when `BLOCK_INTERVAL` is unset, unparsable or zero. */
  const DefaultInterval: nat := 25000

  /** An inclusive block range `[lo, hi]` queried in one log request. */
  datatype Chunk = Chunk(lo: nat, hi: nat)

  function Min(a: int, b: int): int {
    if a <= b then a else b
  }

  /**
   * `parseInt(process.env.BLOCK_INTERVAL, 10) || 25000`: `parsed` is `None`
   * when `parseInt` gives `NaN`. Zero is falsy and also falls back to 25000.
   */
  function EffectiveInterval(parsed: Option<int>): (w: int)
    ensures w != 0
    ensures w > 0 <==> !(parsed.Some? && parsed.value < 0)
    ensures parsed.Some? && parsed.value != 0 ==> w == parsed.value
    ensures (parsed.None? || parsed.value == 0) ==> w == DefaultInterval
  {
    if parsed.None? || parsed.value == 0 then DefaultInterval else parsed.value
  }

  /** The chunks the `for (fromBlock = start; fromBlock <= end; fromBlock += w)` loop visits. */
  function Chunks(from: nat, end: nat, w: nat): seq<Chunk>
    requires w > 0
    decreases end + 1 - from
  {
    if from > end then [] else [Chunk(from, Min(from + w - 1, end))] + Chunks(from + w, end, w)
  }

  // ---------------------------------------------------------------- properties

  /** The k-th chunk starts k widths after `from` and ends one width later or at `end`. */
  lemma {:induction false} ChunkAt(from: nat, end: nat, w: nat, k: nat)
    requires w > 0
    requires k < |Chunks(from, end, w)|
    ensures Chunks(from, end, w)[k] == Chunk(from + k * w, Min(from + k * w + w - 1, end))
    decreases k
  {
    if k > 0 {
      ChunkAt(from + w, end, w, k - 1);
      assert from + w + (k - 1) * w == from + k * w;
    }
  }

  /** The number of chunks is ceil((end - from + 1) / w), and zero when the range is empty. */
  lemma {:induction false} ChunkCount(from: nat, end: nat, w: nat)
    requires w > 0
    ensures |Chunks(from, end, w)| == if from <= end then (end - from + w) / w else 0
    decreases end + 1 - from
  {
    if from <= end {
      ChunkCount(from + w, end, w);
      var x := end - from + w;
      if from + w > end {
        DivIsOne(x, w);
      } else {
        DivStep(x, w);
      }
    }
  }

  lemma DivIsOne(x: int, w: int)
    requires 0 < w <= x < 2 * w
    ensures x / w == 1
  {
  }

  lemma DivStep(x: int, w: int)
    requires 0 < w <= x
    ensures (x - w) / w + 1 == x / w
  {
    var q, r := (x - w) / w, (x - w) % w;
    assert x == (q + 1) * w + r;
    DivUnique(x, w, q + 1, r);
  }

  lemma DivUnique(x: int, w: int, q: int, r: int)
    requires 0 < w && 0 <= r < w && x == q * w + r
    ensures x / w == q
  {
    var q', r' := x / w, x % w;
    assert q' * w + r' == q * w + r;
    if q' < q {
      MulDiff(q, q', w);
    } else if q' > q {
      MulDiff(q', q, w);
    }
  }

  lemma MulDiff(a: int, b: int, w: int)
    requires a > b && w > 0
    ensures a * w - b * w >= w
  {
    var d: nat := a - b;
    assert a * w - b * w == d * w;
    MulAtLeast(d, w);
  }

  lemma {:induction false} MulAtLeast(d: nat, w: nat)
    requires d >= 1
    ensures d * w >= w
  {
    if d > 1 {
      MulAtLeast(d - 1, w);
      assert d * w == (d - 1) * w + w;
    }
  }

  /** A chunk is a non-empty range inside `[from, end]` of at most `w` blocks. */
  predicate InRange(c: Chunk, from: nat, end: nat, w: nat) {
    from <= c.lo <= c.hi <= end && c.hi - c.lo < w
  }

  predicate AllInRange(cs: seq<Chunk>, from: nat, end: nat, w: nat) {
    forall k :: 0 <= k < |cs| ==> InRange(cs[k], from, end, w)
  }

  /** Every chunk but the last has exactly `w` blocks and is followed by the next block. */
  predicate Adjacent(cs: seq<Chunk>, w: nat) {
    forall k :: 0 <= k < |cs| - 1 ==> cs[k + 1].lo == cs[k].hi + 1 && cs[k].hi - cs[k].lo + 1 == w
  }

  /** The first chunk starts at `from` and the last ends at `end`; an empty range has no chunks. */
  predicate Spans(cs: seq<Chunk>, from: nat, end: nat) {
    && (from <= end ==> |cs| > 0 && cs[0].lo == from && cs[|cs| - 1].hi == end)
    && (from > end ==> cs == [])
  }

  /** Chunks come in ascending order and do not overlap. */
  predicate Ascending(cs: seq<Chunk>) {
    forall i, j :: 0 <= i < j < |cs| ==> cs[i].hi < cs[j].lo
  }

  lemma {:induction false} ChunksWithinRange(from: nat, end: nat, w: nat)
    requires w > 0
    ensures AllInRange(Chunks(from, end, w), from, end, w)
    decreases end + 1 - from
  {
    if from <= end {
      ChunksWithinRange(from + w, end, w);
      var cs := Chunks(from, end, w);
      var rest := Chunks(from + w, end, w);
      assert cs[1..] == rest;
      forall k | 0 <= k < |cs| ensures InRange(cs[k], from, end, w) {
        if k == 0 {
          assert cs[0] == Chunk(from, Min(from + w - 1, end));
        } else {
          assert cs[k] == rest[k - 1];
          assert InRange(rest[k - 1], from + w, end, w);
        }
      }
    }
  }

  lemma {:induction false} ChunksAdjacent(from: nat, end: nat, w: nat)
    requires w > 0
    ensures Adjacent(Chunks(from, end, w), w)
    decreases end + 1 - from
  {
    if from <= end {
      ChunksAdjacent(from + w, end, w);
      ChunksEnds(from + w, end, w);
      var cs := Chunks(from, end, w);
      var rest := Chunks(from + w, end, w);
      assert cs[1..] == rest;
      forall k | 0 <= k < |cs| - 1
        ensures cs[k + 1].lo == cs[k].hi + 1 && cs[k].hi - cs[k].lo + 1 == w
      {
        if k == 0 {
          assert cs[0] == Chunk(from, Min(from + w - 1, end));
          assert cs[1] == rest[0];
        } else {
          assert cs[k] == rest[k - 1] && cs[k + 1] == rest[k];
        }
      }
    }
  }

  lemma {:induction false} ChunksEnds(from: nat, end: nat, w: nat)
    requires w > 0
    ensures Spans(Chunks(from, end, w), from, end)
    decreases end + 1 - from
  {
    if from <= end {
      ChunksEnds(from + w, end, w);
      var cs := Chunks(from, end, w);
      var rest := Chunks(from + w, end, w);
      assert cs[1..] == rest;
      if rest != [] {
        assert cs[|cs| - 1] == rest[|rest| - 1];
      }
    }
  }

  /** The chunks tile `[from, end]`: the three facts above together. */
  lemma ChunksContiguous(from: nat, end: nat, w: nat)
    requires w > 0
    ensures var cs := Chunks(from, end, w);
      AllInRange(cs, from, end, w) && Adjacent(cs, w) && Spans(cs, from, end)
  {
    ChunksWithinRange(from, end, w);
    ChunksAdjacent(from, end, w);
    ChunksEnds(from, end, w);
  }

  lemma {:induction false} ChunksAscending(from: nat, end: nat, w: nat)
    requires w > 0
    ensures Ascending(Chunks(from, end, w))
    decreases end + 1 - from
  {
    if from <= end {
      ChunksAscending(from + w, end, w);
      ChunksWithinRange(from + w, end, w);
      var cs := Chunks(from, end, w);
      var rest := Chunks(from + w, end, w);
      assert cs[1..] == rest;
      forall i, j | 0 <= i < j < |cs| ensures cs[i].hi < cs[j].lo {
        assert cs[j] == rest[j - 1];
        assert InRange(rest[j - 1], from + w, end, w);
        if i > 0 {
          assert cs[i] == rest[i - 1];
        } else {
          assert cs[0] == Chunk(from, Min(from + w - 1, end));
        }
      }
    }
  }

  predicate Covers(c: Chunk, b: nat) {
    c.lo <= b <= c.hi
  }

  /** Every block of `[from, end]` lies in exactly one chunk, and no chunk reaches outside it. */
  lemma ChunksCoverExactlyOnce(from: nat, end: nat, w: nat, b: nat)
    requires w > 0
    ensures var cs := Chunks(from, end, w);
      && (from <= b <= end <==> exists k :: 0 <= k < |cs| && Covers(cs[k], b))
      && (forall i, j :: 0 <= i < |cs| && 0 <= j < |cs| && Covers(cs[i], b) && Covers(cs[j], b) ==> i == j)
  {
    var cs := Chunks(from, end, w);
    ChunksContiguous(from, end, w);
    ChunksAscending(from, end, w);
    if from <= b <= end {
      var k := CoveringChunk(from, end, w, b);
      assert Covers(cs[k], b);
    }
    forall i, j | 0 <= i < |cs| && 0 <= j < |cs| && Covers(cs[i], b) && Covers(cs[j], b)
      ensures i == j
    {
    }
  }

  /** The index of the chunk that holds block `b`. */
  lemma {:induction false} CoveringChunk(from: nat, end: nat, w: nat, b: nat) returns (k: nat)
    requires w > 0
    requires from <= b <= end
    ensures k < |Chunks(from, end, w)| && Covers(Chunks(from, end, w)[k], b)
    decreases end + 1 - from
  {
    if b <= Min(from + w - 1, end) {
      k := 0;
    } else {
      var k' := CoveringChunk(from + w, end, w, b);
      k := k' + 1;
      assert Chunks(from, end, w)[k] == Chunks(from + w, end, w)[k'];
    }
  }

  /** Blocks 100 to 260 in chunks of 100 are queried as [100, 199] and [200, 260]. */
  lemma ExampleChunks()
    ensures Chunks(100, 260, 100) == [Chunk(100, 199), Chunk(200, 260)]
  {
    assert Chunks(300, 260, 100) == [];
    assert Chunks(200, 260, 100) == [Chunk(200, 260)];
  }
}

=== FILE: outcomes.dfy ===
/** Option and Result values standing in for JavaScript's `undefined` and thrown errors. */
module Outcomes {

  datatype Option<+T> = None | Some(value: T)

  datatype Result<+T, +E> = Ok(value: T) | Err(error: E)
}

=== FILE: range_scanner.dfy ===
/**
 * `fetchPKPs` and `scan`: for every selected network, every block chunk is
 * queried for `PKPMinted` events, and for every event the six Bitcoin
 * addresses are derived and the token's ETH address is read. Each success
 * pushes one record. The JSON-RPC provider is given as the `Chain` oracle.
 */
module RangeScanner {
  import opened Outcomes
  import opened Text
  import opened AddressCodec
  import opened BlockChunks
  import opened ResultAggregator

  /** A `PKPMinted(uint256 tokenId, bytes pubkey)` log entry; `pubkey` is its hex text. */
  datatype MintEvent = MintEvent(tokenId: nat, pubkey: string)

  /**
   * The contract calls made through the provider: `queryFilter(address, from, to)`
   * for the PKPMinted logs of one contract in an inclusive block range, and
   * `getEthAddress(address, tokenId)`. `None` is a thrown error.
   */
  datatype Chain = Chain(
    queryFilter: (string, nat, nat) -> Option<seq<MintEvent>>,
    getEthAddress: (string, nat) -> Option<string>)

  datatype ScanError =
    | UnknownBlockchain(name: string)   // `blockchains[name]` is undefined in `scan`
    | BlockchainNotSpecified            // the `!selectedBlockchain` guard of `fetchPKPs`
    | InvalidNetwork(selector: string)  // a network with no contract address
    | HeadUnavailable                   // `provider.getBlockNumber()` failed

  /** What `scan` resolves to: nothing when there are no new blocks, else the two tables. */
  datatype ScanOutput = NoNewBlocks | Scanned(pkpCsv: string, blocksCsv: string)

  /** The blockchains `scan` accepts, with their chain ids. */
  const Blockchains: seq<(string, nat)> := [("chronicle", 175177), ("yellowstone", 175188)]

  /** The `networks` table: network name to PKP contract address, in declaration order. */
  const Networks: seq<(string, string)> := [
    ("datil_prod", "0x487A9D096BB4B7Ac1520Cb12370e31e677B175EA"),
    ("datil_dev", "0x02C4242F72d62c8fEF2b2DB088A35a9F4ec741C7"),
    ("datil_test", "0x6a0f439f064B7167A8Ea6B22AcC07ae5360ee0d1")]

  /** `Object.keys(table)`. */
  function Names<V>(table: seq<(string, V)>): (r: seq<string>)
    ensures |r| == |table|
    ensures forall i :: 0 <= i < |table| ==> r[i] == table[i].0
  {
    if table == [] then [] else [table[0].0] + Names(table[1..])
  }

  /** `networks[name]`, with "" standing for `undefined` (both are falsy). */
  function ContractAddress(name: string): string {
    LookupIn(Networks, name)
  }

  function LookupIn(table: seq<(string, string)>, name: string): string {
    if table == [] then ""
    else if table[0].0 == name then table[0].1
    else LookupIn(table[1..], name)
  }

  /** `networksToUse`: every network for "all", otherwise the one named. */
  function SelectNetworks(selector: string): seq<string> {
    if selector == "all" then Names(Networks) else [selector]
  }

  /** Every selected network has a contract address, so the loop never throws. */
  predicate AllConfigured(nets: seq<string>) {
    forall i :: 0 <= i < |nets| ==> ContractAddress(nets[i]) != ""
  }

  /** Address derivation as the scan sees it: a public key's six addresses, or `None` if it throws. */
  type Deriver = string -> Option<AddressSet>

  /** `calculateBtcAddresses` with the given library calls. */
  function BtcAddresses(enc: Encoders): Deriver {
    (publicKey: string) => Derive(publicKey, enc)
  }

  /** The fixed values of the records for one network. */
  datatype Context = Context(blockchain: string, network: string, address: string)

  /** The object pushed for one event. */
  function MakeRecord(ctx: Context, ev: MintEvent, a: AddressSet, ethAddress: string): RawRecord {
    RawRecord(Str(ctx.blockchain), Str(ctx.network), Str(NatToString(ev.tokenId)), Str(ethAddress),
              Str(a.p2pkh), Str(a.p2wpkh), Str(a.p2shP2wpkh), Str(a.p2tr), Str(a.p2wsh), Str(a.p2sh))
  }

  /**
   * The records pushed for the events of one chunk: an event whose ETH address
   * cannot be read is skipped; an event whose addresses cannot be derived
   * abandons the rest of the chunk.
   */
  function EventRecords(ctx: Context, chain: Chain, derive: Deriver, events: seq<MintEvent>): seq<RawRecord>
    decreases |events|
  {
    if events == [] then []
    else
      match derive(events[0].pubkey)
      case None => []
      case Some(a) => Recorded(ctx, chain, events[0], a) + EventRecords(ctx, chain, derive, events[1..])
  }

  /** The record of one event whose addresses are `a`: none when its ETH address cannot be read. */
  function Recorded(ctx: Context, chain: Chain, ev: MintEvent, a: AddressSet): seq<RawRecord> {
    match chain.getEthAddress(ctx.address, ev.tokenId)
    case None => []
    case Some(eth) => [MakeRecord(ctx, ev, a, eth)]
  }

  /** The records of one chunk: none when its log query fails. */
  function ChunkRecords(ctx: Context, chain: Chain, derive: Deriver, c: Chunk): seq<RawRecord> {
    match chain.queryFilter(ctx.address, c.lo, c.hi)
    case None => []
    case Some(events) => EventRecords(ctx, chain, derive, events)
  }

  /** `f` applied to every element, the results concatenated in order. */
  function Flatten<T, U>(f: T -> seq<U>, xs: seq<T>): seq<U>
    decreases |xs|
  {
    if xs == [] then [] else f(xs[0]) + Flatten(f, xs[1..])
  }

  /** The records of a run of chunks, chunk after chunk. */
  function ChunksRecords(ctx: Context, chain: Chain, derive: Deriver, cs: seq<Chunk>): seq<RawRecord> {
    Flatten((c: Chunk) => ChunkRecords(ctx, chain, derive, c), cs)
  }

  /** The records of a run of networks, each over all chunks of `[startBlock, endBlock]`. */
  function NetworksRecords(blockchain: string, nets: seq<string>, startBlock: nat, endBlock: nat, w: nat,
                           chain: Chain, derive: Deriver): seq<RawRecord>
    requires w > 0
    decreases |nets|
  {
    if nets == [] then []
    else
      var ctx := Context(blockchain, nets[0], ContractAddress(nets[0]));
      ChunksRecords(ctx, chain, derive, Chunks(startBlock, endBlock, w))
      + NetworksRecords(blockchain, nets[1..], startBlock, endBlock, w, chain, derive)
  }

  /** What `fetchPKPs` returns or throws. */
  function FetchPkpsSpec(startBlock: nat, endBlock: nat, blockchain: string, selector: string,
                         intervalEnv: Option<int>, chain: Chain, enc: Encoders): Result<seq<Row>, ScanError>
    requires EffectiveInterval(intervalEnv) > 0
  {
    var nets := SelectNetworks(selector);
    if blockchain == "" then Err(BlockchainNotSpecified)
    else if !AllConfigured(nets) then Err(InvalidNetwork(selector))
    else Ok(Clean(NetworksRecords(blockchain, nets, startBlock, endBlock, EffectiveInterval(intervalEnv), chain, BtcAddresses(enc))))
  }

  /**
   * The innermost loop of `fetchPKPs`: the records of the events one log query
   * returned, appended to `results`.
   */
  method CollectEvents(ctx: Context, chain: Chain, derive: Deriver, events: seq<MintEvent>, results: seq<RawRecord>)
    returns (out: seq<RawRecord>)
    ensures out == results + EventRecords(ctx, chain, derive, events)
  {
    out := results;
    var j := 0;
    assert events[j..] == events;
    while j < |events|
      invariant 0 <= j <= |events|
      invariant out + EventRecords(ctx, chain, derive, events[j..]) == results + EventRecords(ctx, chain, derive, events)
    {
      var addresses := derive(events[j].pubkey);
      if addresses.None? {
        assert out == results + EventRecords(ctx, chain, derive, events) by {
          EventsStep(ctx, chain, derive, events, j);
        }
        break;
      }
      var ethAddress := chain.getEthAddress(ctx.address, events[j].tokenId);
      ghost var later := EventRecords(ctx, chain, derive, events[j + 1..]);
      if ethAddress.Some? {
        var record := MakeRecord(ctx, events[j], addresses.value, ethAddress.value);
        assert (out + [record]) + later == results + EventRecords(ctx, chain, derive, events) by {
          EventsStep(ctx, chain, derive, events, j);
          Regroup(out, [record], later);
        }
        out := out + [record];
      } else {
        assert out + later == results + EventRecords(ctx, chain, derive, events) by {
          EventsStep(ctx, chain, derive, events, j);
        }
      }
      j := j + 1;
    }
    assert out == results + EventRecords(ctx, chain, derive, events) by {
      assert events[j..] == [] || derive(events[j].pubkey).None?;
    }
  }

  lemma EventsStep(ctx: Context, chain: Chain, derive: Deriver, events: seq<MintEvent>, j: nat)
    requires j < |events|
    ensures derive(events[j].pubkey).None? ==> EventRecords(ctx, chain, derive, events[j..]) == []
    ensures derive(events[j].pubkey).Some? ==>
      EventRecords(ctx, chain, derive, events[j..])
      == Recorded(ctx, chain, events[j], derive(events[j].pubkey).value) + EventRecords(ctx, chain, derive, events[j + 1..])
  {
    assert events[j..][0] == events[j];
    assert events[j..][1..] == events[j + 1..];
  }

  /** The block loop of `fetchPKPs` for one network: every chunk of `[startBlock, endBlock]`. */
  method CollectNetwork(ctx: Context, chain: Chain, derive: Deriver, startBlock: nat, endBlock: nat, w: nat,
                        results: seq<RawRecord>)
    returns (out: seq<RawRecord>)
    requires w > 0
    ensures out == results + ChunksRecords(ctx, chain, derive, Chunks(startBlock, endBlock, w))
  {
    out := results;
    var fromBlock := startBlock;
    ghost var total := results + ChunksRecords(ctx, chain, derive, Chunks(startBlock, endBlock, w));
    while fromBlock <= endBlock
      invariant out + ChunksRecords(ctx, chain, derive, Chunks(fromBlock, endBlock, w)) == total
      decreases endBlock + 1 - fromBlock
    {
      var toBlock: nat := Min(fromBlock + w - 1, endBlock);
      ghost var before, chunk := out, ChunkRecords(ctx, chain, derive, Chunk(fromBlock, toBlock));
      ghost var later := ChunksRecords(ctx, chain, derive, Chunks(fromBlock + w, endBlock, w));
      var query := chain.queryFilter(ctx.address, fromBlock, toBlock);
      if query.Some? {
        out := CollectEvents(ctx, chain, derive, query.value, out);
      } else {
        assert before + [] == before;
      }
      assert out == before + chunk;
      assert out + later == total by {
        ChunksStep(ctx, chain, derive, fromBlock, endBlock, w);
        Regroup(before, chunk, later);
      }
      fromBlock := fromBlock + w;
    }
  }

  lemma ChunksStep(ctx: Context, chain: Chain, derive: Deriver, from: nat, end: nat, w: nat)
    requires w > 0 && from <= end
    ensures ChunksRecords(ctx, chain, derive, Chunks(from, end, w))
         == ChunkRecords(ctx, chain, derive, Chunk(from, Min(from + w - 1, end)))
            + ChunksRecords(ctx, chain, derive, Chunks(from + w, end, w))
  {
    var f := (c: Chunk) => ChunkRecords(ctx, chain, derive, c);
    var cs := Chunks(from, end, w);
    assert cs[0] == Chunk(from, Min(from + w - 1, end));
    assert cs[1..] == Chunks(from + w, end, w);
    assert Flatten(f, cs) == f(cs[0]) + Flatten(f, cs[1..]);
  }

  /** `fetchPKPs`: the guards, then the network loop, then `cleanArray`. */
  method FetchPkps(startBlock: nat, endBlock: nat, blockchain: string, selector: string,
                   intervalEnv: Option<int>, chain: Chain, enc: Encoders)
    returns (r: Result<seq<Row>, ScanError>)
    requires EffectiveInterval(intervalEnv) > 0
    ensures r == FetchPkpsSpec(startBlock, endBlock, blockchain, selector, intervalEnv, chain, enc)
  {
    var w: nat := EffectiveInterval(intervalEnv);
    var derive := BtcAddresses(enc);
    if blockchain == "" {
      return Err(BlockchainNotSpecified);
    }
    var results: seq<RawRecord> := [];
    var nets := SelectNetworks(selector);
    var i := 0;
    while i < |nets|
      invariant 0 <= i <= |nets|
      invariant forall j :: 0 <= j < i ==> ContractAddress(nets[j]) != ""
      invariant results + NetworksRecords(blockchain, nets[i..], startBlock, endBlock, w, chain, derive)
             == NetworksRecords(blockchain, nets, startBlock, endBlock, w, chain, derive)
    {
      var network := nets[i];
      var address := ContractAddress(network);
      if address == "" {
        assert !AllConfigured(nets);
        return Err(InvalidNetwork(selector));
      }
      var ctx := Context(blockchain, network, address);
      assert nets[i..][0] == network && nets[i..][1..] == nets[i + 1..];
      ghost var before, own := results, ChunksRecords(ctx, chain, derive, Chunks(startBlock, endBlock, w));
      ghost var later := NetworksRecords(blockchain, nets[i + 1..], startBlock, endBlock, w, chain, derive);
      assert NetworksRecords(blockchain, nets[i..], startBlock, endBlock, w, chain, derive) == own + later;
      results := CollectNetwork(ctx, chain, derive, startBlock, endBlock, w, results);
      Regroup(before, own, later);
      i := i + 1;
    }
    assert nets[i..] == [];
    assert results == NetworksRecords(blockchain, nets, startBlock, endBlock, w, chain, derive);
    assert AllConfigured(nets);
    r := Ok(Clean(results));
  }

  /** What `scan` resolves to or throws. */
  function ScanSpec(startBlock: nat, blockchain: string, networkEnv: string, intervalEnv: Option<int>,
                    head: Option<nat>, chain: Chain, enc: Encoders): Result<ScanOutput, ScanError>
    requires EffectiveInterval(intervalEnv) > 0
  {
    if blockchain !in Names(Blockchains) then Err(UnknownBlockchain(blockchain))
    else if head.None? then Err(HeadUnavailable)
    else if startBlock == head.value then Ok(NoNewBlocks)
    else
      var selector := if networkEnv == "" then "all" else networkEnv;
      match FetchPkpsSpec(startBlock, head.value, blockchain, selector, intervalEnv, chain, enc)
      case Err(e) => Err(e)
      case Ok(rows) => Ok(Scanned(ToCsv(rows), BlocksCsv(startBlock, head.value)))
  }

  /**
   * `scan`: `head` is what `provider.getBlockNumber()` returned (`None` if it
   * threw); `networkEnv` is `process.env.NETWORK`, "" when unset.
   */
  method Scan(startBlock: nat, blockchain: string, networkEnv: string, intervalEnv: Option<int>,
              head: Option<nat>, chain: Chain, enc: Encoders)
    returns (r: Result<ScanOutput, ScanError>)
    requires EffectiveInterval(intervalEnv) > 0
    ensures r == ScanSpec(startBlock, blockchain, networkEnv, intervalEnv, head, chain, enc)
  {
    if blockchain !in Names(Blockchains) {
      return Err(UnknownBlockchain(blockchain));
    }
    if head.None? {
      return Err(HeadUnavailable);
    }
    var endBlock := head.value;
    if startBlock == endBlock {
      return Ok(NoNewBlocks);
    }
    var network := if networkEnv == "" then "all" else networkEnv;
    var pkps := FetchPkps(startBlock, endBlock, blockchain, network, intervalEnv, chain, enc);
    if pkps.Err? {
      return Err(pkps.error);
    }
    var pkpCsv := ToCsv(pkps.value);
    r := Ok(Scanned(pkpCsv, BlocksCsv(startBlock, endBlock)));
  }

  // ---------------------------------------------------------------- network selection

  /** With every address non-empty, a lookup succeeds exactly for the names in the table. */
  lemma {:induction false} LookupFindsListedNames(table: seq<(string, string)>, name: string)
    requires forall i :: 0 <= i < |table| ==> table[i].1 != ""
    ensures LookupIn(table, name) != "" <==> name in Names(table)
    decreases |table|
  {
    if table != [] {
      LookupFindsListedNames(table[1..], name);
      assert Names(table) == [table[0].0] + Names(table[1..]);
    }
  }

  /** "all" selects the three networks in declaration order, each with a contract address. */
  lemma AllSelectsEveryNetwork()
    ensures SelectNetworks("all") == ["datil_prod", "datil_dev", "datil_test"]
    ensures AllConfigured(SelectNetworks("all"))
  {
    var nets := SelectNetworks("all");
    assert nets == ["datil_prod", "datil_dev", "datil_test"];
    forall i | 0 <= i < |nets| ensures ContractAddress(nets[i]) != "" {
      LookupFindsListedNames(Networks, nets[i]);
    }
  }

  /** A selection is accepted exactly when it is "all" or the name of a configured network. */
  lemma SelectionAccepted(selector: string)
    ensures AllConfigured(SelectNetworks(selector)) <==> selector == "all" || selector in Names(Networks)
  {
    AllSelectsEveryNetwork();
    LookupFindsListedNames(Networks, selector);
    if selector != "all" {
      assert SelectNetworks(selector)[0] == selector;
    }
  }

  /**
   * A selection the network loop rejects is a single name without a contract
   * address: the loop throws on its first pass, before any log query, while
   * `results` is still empty.
   */
  lemma RejectedSelectionIsOneName(selector: string)
    ensures !AllConfigured(SelectNetworks(selector)) ==>
      SelectNetworks(selector) == [selector] && ContractAddress(selector) == ""
  {
    AllSelectsEveryNetwork();
  }

  /**
   * `fetchPKPs` throws for a missing blockchain, and for a selection that is
   * neither "all" nor a configured network; it throws nothing else.
   */
  lemma FetchOutcome(startBlock: nat, endBlock: nat, blockchain: string, selector: string,
                     intervalEnv: Option<int>, chain: Chain, enc: Encoders)
    requires EffectiveInterval(intervalEnv) > 0
    ensures var r := FetchPkpsSpec(startBlock, endBlock, blockchain, selector, intervalEnv, chain, enc);
      && (r == Err(BlockchainNotSpecified) <==> blockchain == "")
      && (r == Err(InvalidNetwork(selector)) <==> blockchain != "" && selector != "all" && selector !in Names(Networks))
      && (r.Ok? <==> blockchain != "" && (selector == "all" || selector in Names(Networks)))
  {
    SelectionAccepted(selector);
  }

  /** A single configured network is the only one scanned. */
  lemma SingleNetworkScan(startBlock: nat, endBlock: nat, blockchain: string, selector: string,
                          intervalEnv: Option<int>, chain: Chain, enc: Encoders)
    requires EffectiveInterval(intervalEnv) > 0
    requires blockchain != "" && selector in Names(Networks)
    ensures FetchPkpsSpec(startBlock, endBlock, blockchain, selector, intervalEnv, chain, enc)
         == Ok(Clean(ChunksRecords(Context(blockchain, selector, ContractAddress(selector)), chain, BtcAddresses(enc),
                                   Chunks(startBlock, endBlock, EffectiveInterval(intervalEnv)))))
  {
    SelectionAccepted(selector);
    assert selector != "all" by {
      AllSelectsEveryNetwork();
    }
    var w: nat := EffectiveInterval(intervalEnv);
    var own := ChunksRecords(Context(blockchain, selector, ContractAddress(selector)), chain, BtcAddresses(enc),
                             Chunks(startBlock, endBlock, w));
    assert SelectNetworks(selector) == [selector];
    assert [selector][1..] == [];
    assert NetworksRecords(blockchain, [selector], startBlock, endBlock, w, chain, BtcAddresses(enc)) == own + [];
    assert own + [] == own;
  }

  // ---------------------------------------------------------------- events within one chunk

  /** While every address derivation succeeds, the records of a prefix and of the rest concatenate. */
  lemma {:induction false} EventRecordsSplit(ctx: Context, chain: Chain, derive: Deriver, events: seq<MintEvent>, i: nat)
    requires i <= |events|
    requires forall j :: 0 <= j < i ==> derive(events[j].pubkey).Some?
    ensures EventRecords(ctx, chain, derive, events)
         == EventRecords(ctx, chain, derive, events[..i]) + EventRecords(ctx, chain, derive, events[i..])
    decreases i
  {
    if i == 0 {
      assert events[..0] == [] && events[0..] == events;
    } else {
      var tail, head := events[1..], events[..i];
      var first := Recorded(ctx, chain, events[0], derive(events[0].pubkey).value);
      var rest := EventRecords(ctx, chain, derive, events[i..]);
      assert EventRecords(ctx, chain, derive, tail) == EventRecords(ctx, chain, derive, tail[..i - 1]) + rest by {
        assert forall j :: 0 <= j < i - 1 ==> tail[j] == events[j + 1];
        EventRecordsSplit(ctx, chain, derive, tail, i - 1);
        assert tail[i - 1..] == events[i..];
      }
      assert EventRecords(ctx, chain, derive, head) == first + EventRecords(ctx, chain, derive, tail[..i - 1]) by {
        assert head[0] == events[0] && head[1..] == tail[..i - 1];
      }
      assert EventRecords(ctx, chain, derive, events) == first + EventRecords(ctx, chain, derive, tail);
      Regroup(first, EventRecords(ctx, chain, derive, tail[..i - 1]), rest);
    }
  }

  /** An event whose addresses cannot be derived ends its chunk: no later event of it is recorded. */
  lemma EventFailureAbandonsChunk(ctx: Context, chain: Chain, derive: Deriver, events: seq<MintEvent>, i: nat)
    requires i < |events|
    requires forall j :: 0 <= j < i ==> derive(events[j].pubkey).Some?
    requires derive(events[i].pubkey).None?
    ensures EventRecords(ctx, chain, derive, events) == EventRecords(ctx, chain, derive, events[..i])
  {
    EventRecordsSplit(ctx, chain, derive, events, i);
    EventsStep(ctx, chain, derive, events, i);
  }

  /** A token whose ETH address cannot be read is left out; the events after it are still recorded. */
  lemma EthFailureSkipsToken(ctx: Context, chain: Chain, derive: Deriver, events: seq<MintEvent>, i: nat)
    requires i < |events|
    requires forall j :: 0 <= j <= i ==> derive(events[j].pubkey).Some?
    requires chain.getEthAddress(ctx.address, events[i].tokenId).None?
    ensures EventRecords(ctx, chain, derive, events)
         == EventRecords(ctx, chain, derive, events[..i]) + EventRecords(ctx, chain, derive, events[i + 1..])
  {
    EventRecordsSplit(ctx, chain, derive, events, i);
    EventsStep(ctx, chain, derive, events, i);
  }

  /** When every call succeeds, there is one record per event, in event order. */
  lemma {:induction false} EventRecordsAllSucceed(ctx: Context, chain: Chain, derive: Deriver, events: seq<MintEvent>)
    requires forall j :: 0 <= j < |events| ==>
      derive(events[j].pubkey).Some? && chain.getEthAddress(ctx.address, events[j].tokenId).Some?
    ensures |EventRecords(ctx, chain, derive, events)| == |events|
    ensures forall k :: 0 <= k < |events| ==>
      EventRecords(ctx, chain, derive, events)[k]
      == MakeRecord(ctx, events[k], derive(events[k].pubkey).value,
                    chain.getEthAddress(ctx.address, events[k].tokenId).value)
    decreases |events|
  {
    if events != [] {
      var tail := events[1..];
      assert forall j :: 0 <= j < |tail| ==> tail[j] == events[j + 1];
      EventRecordsAllSucceed(ctx, chain, derive, tail);
      var rs := EventRecords(ctx, chain, derive, events);
      assert rs[1..] == EventRecords(ctx, chain, derive, tail);
      forall k | 0 <= k < |events|
        ensures rs[k] == MakeRecord(ctx, events[k], derive(events[k].pubkey).value,
                                    chain.getEthAddress(ctx.address, events[k].tokenId).value)
      {
        if k > 0 {
          assert rs[k] == rs[1..][k - 1];
        }
      }
    }
  }

  // ---------------------------------------------------------------- chunks

  lemma {:induction false} FlattenAppend<T, U>(f: T -> seq<U>, a: seq<T>, b: seq<T>)
    ensures Flatten(f, a + b) == Flatten(f, a) + Flatten(f, b)
    decreases |a|
  {
    if a == [] {
      assert a + b == b;
    } else {
      FlattenAppend(f, a[1..], b);
      assert (a + b)[0] == a[0] && (a + b)[1..] == a[1..] + b;
      Regroup(f(a[0]), Flatten(f, a[1..]), Flatten(f, b));
    }
  }

  /** A chunk whose log query fails contributes nothing; every other chunk is still recorded. */
  lemma FailedChunkContributesNothing(ctx: Context, chain: Chain, derive: Deriver, cs: seq<Chunk>, k: nat)
    requires k < |cs|
    requires chain.queryFilter(ctx.address, cs[k].lo, cs[k].hi).None?
    ensures ChunksRecords(ctx, chain, derive, cs)
         == ChunksRecords(ctx, chain, derive, cs[..k]) + ChunksRecords(ctx, chain, derive, cs[k + 1..])
  {
    var f := (c: Chunk) => ChunkRecords(ctx, chain, derive, c);
    assert cs == cs[..k] + cs[k..];
    FlattenAppend(f, cs[..k], cs[k..]);
    assert cs[k..][0] == cs[k] && cs[k..][1..] == cs[k + 1..];
    assert f(cs[k]) == [];
  }

  /** Blocks 100 to 260 in chunks of 100: when [200, 260] fails, only [100, 199] is recorded. */
  lemma ExampleFailedChunk(ctx: Context, chain: Chain, derive: Deriver)
    requires chain.queryFilter(ctx.address, 200, 260).None?
    ensures ChunksRecords(ctx, chain, derive, Chunks(100, 260, 100)) == ChunkRecords(ctx, chain, derive, Chunk(100, 199))
  {
    ExampleChunks();
    var cs := Chunks(100, 260, 100);
    FailedChunkContributesNothing(ctx, chain, derive, cs, 1);
    assert cs[..1] == [Chunk(100, 199)] && cs[2..] == [];
  }

  // ---------------------------------------------------------------- record tags

  /** Every record names the blockchain and network it was scanned on. */
  lemma {:induction false} EventRecordsTagged(ctx: Context, chain: Chain, derive: Deriver, events: seq<MintEvent>)
    ensures forall r :: r in EventRecords(ctx, chain, derive, events) ==>
      r.blockchain == Str(ctx.blockchain) && r.network == Str(ctx.network)
    decreases |events|
  {
    if events != [] {
      EventRecordsTagged(ctx, chain, derive, events[1..]);
    }
  }

  lemma {:induction false} ChunksRecordsTagged(ctx: Context, chain: Chain, derive: Deriver, cs: seq<Chunk>)
    ensures forall r :: r in ChunksRecords(ctx, chain, derive, cs) ==>
      r.blockchain == Str(ctx.blockchain) && r.network == Str(ctx.network)
    decreases |cs|
  {
    if cs != [] {
      ChunksRecordsTagged(ctx, chain, derive, cs[1..]);
      var q := chain.queryFilter(ctx.address, cs[0].lo, cs[0].hi);
      if q.Some? {
        EventRecordsTagged(ctx, chain, derive, q.value);
      }
    }
  }

  /** Every record of a scan names the scanned blockchain and one of the selected networks. */
  lemma {:induction false} NetworksRecordsTagged(blockchain: string, nets: seq<string>, startBlock: nat, endBlock: nat,
                                                 w: nat, chain: Chain, derive: Deriver)
    requires w > 0
    ensures forall r :: r in NetworksRecords(blockchain, nets, startBlock, endBlock, w, chain, derive) ==>
      r.blockchain == Str(blockchain) && r.network.Str? && r.network.s in nets
    decreases |nets|
  {
    if nets != [] {
      NetworksRecordsTagged(blockchain, nets[1..], startBlock, endBlock, w, chain, derive);
      ChunksRecordsTagged(Context(blockchain, nets[0], ContractAddress(nets[0])), chain, derive,
                          Chunks(startBlock, endBlock, w));
      assert forall n :: n in nets[1..] ==> n in nets;
    }
  }

  // ---------------------------------------------------------------- scan

  /** `scan` reports no new blocks exactly when the chain head equals the start block. */
  lemma ScanNoNewBlocks(startBlock: nat, blockchain: string, networkEnv: string, intervalEnv: Option<int>,
                        head: Option<nat>, chain: Chain, enc: Encoders)
    requires EffectiveInterval(intervalEnv) > 0
    ensures ScanSpec(startBlock, blockchain, networkEnv, intervalEnv, head, chain, enc) == Ok(NoNewBlocks)
        <==> blockchain in Names(Blockchains) && head == Some(startBlock)
  {
  }

  /** An unset NETWORK scans every network. */
  lemma ScanDefaultsToAll(startBlock: nat, blockchain: string, intervalEnv: Option<int>,
                          head: Option<nat>, chain: Chain, enc: Encoders)
    requires EffectiveInterval(intervalEnv) > 0
    ensures ScanSpec(startBlock, blockchain, "", intervalEnv, head, chain, enc)
         == ScanSpec(startBlock, blockchain, "all", intervalEnv, head, chain, enc)
  {
  }

  /** A completed scan's block table reads back as the scanned range; its PKP table starts with the header. */
  lemma ScanTables(startBlock: nat, blockchain: string, networkEnv: string, intervalEnv: Option<int>,
                   head: Option<nat>, chain: Chain, enc: Encoders)
    requires EffectiveInterval(intervalEnv) > 0
    ensures var r := ScanSpec(startBlock, blockchain, networkEnv, intervalEnv, head, chain, enc);
      r.Ok? && r.value.Scanned? ==>
        && ReadBlocks(r.value.blocksCsv) == Some((startBlock, head.value))
        && Split(r.value.pkpCsv, '\n')[0] == PkpHeader
  {
    var r := ScanSpec(startBlock, blockchain, networkEnv, intervalEnv, head, chain, enc);
    if r.Ok? && r.value.Scanned? {
      BlocksRoundTrip(startBlock, head.value);
      var selector := if networkEnv == "" then "all" else networkEnv;
      ToCsvStartsWithHeader(FetchPkpsSpec(startBlock, head.value, blockchain, selector, intervalEnv, chain, enc).value);
    }
  }

  /**
   * An unlisted blockchain is refused before anything is queried, and a listed
   * one is never refused as unknown.
   */
  lemma UnknownBlockchainRefused(startBlock: nat, blockchain: string, networkEnv: string, intervalEnv: Option<int>,
                                 head: Option<nat>, chain: Chain, enc: Encoders)
    requires EffectiveInterval(intervalEnv) > 0
    ensures blockchain !in Names(Blockchains) ==>
      ScanSpec(startBlock, blockchain, networkEnv, intervalEnv, head, chain, enc) == Err(UnknownBlockchain(blockchain))
    ensures blockchain in Names(Blockchains) ==>
      ScanSpec(startBlock, blockchain, networkEnv, intervalEnv, head, chain, enc) != Err(UnknownBlockchain(blockchain))
  {
  }
}

=== FILE: result_aggregator.dfy ===
/**
 * What happens to the scanned records before upload: `cleanArray` drops every
 * record with an empty, null or undefined value and renames the columns,
 * `convertToCSV` renders the PKP table, and `scan` renders the two-row
 * table of scanned block numbers.
 */
module ResultAggregator {
  import opened Outcomes
  import opened Text

  /** A JavaScript value held by a record: a string, `null` or `undefined`. */
  datatype Field = Str(s: string) | Null | Undefined

  /** One object pushed onto `results` by `fetchPKPs`, with its ten properties in order. */
  datatype RawRecord = RawRecord(
    blockchain: Field,
    network: Field,
    tokenId: Field,
    ethAddress: Field,
    p2pkh: Field,
    p2wpkh: Field,
    p2shP2wpkh: Field,
    p2tr: Field,
    p2wsh: Field,
    p2sh: Field)

  /** A renamed, fully populated row (`token_id`, `eth_address`, `btcP2PKH`, …). */
  datatype Row = Row(
    blockchain: string,
    network: string,
    tokenId: string,
    ethAddress: string,
    btcP2pkh: string,
    btcP2wpkh: string,
    btcP2shP2wpkh: string,
    btcP2tr: string,
    btcP2wsh: string,
    btcP2sh: string)

  /** `Object.values(row)`. */
  function Values(r: RawRecord): seq<Field> {
    [r.blockchain, r.network, r.tokenId, r.ethAddress, r.p2pkh, r.p2wpkh, r.p2shP2wpkh, r.p2tr, r.p2wsh, r.p2sh]
  }

  /** `value !== "" && value !== null && value !== undefined`. */
  predicate Present(v: Field) {
    v.Str? && v.s != ""
  }

  predicate Complete(r: RawRecord) {
    && Present(r.blockchain) && Present(r.network) && Present(r.tokenId) && Present(r.ethAddress)
    && Present(r.p2pkh) && Present(r.p2wpkh) && Present(r.p2shP2wpkh) && Present(r.p2tr)
    && Present(r.p2wsh) && Present(r.p2sh)
  }

  function Fields(row: Row): seq<string> {
    [row.blockchain, row.network, row.tokenId, row.ethAddress, row.btcP2pkh, row.btcP2wpkh,
     row.btcP2shP2wpkh, row.btcP2tr, row.btcP2wsh, row.btcP2sh]
  }

  predicate Filled(row: Row) {
    forall i :: 0 <= i < |Fields(row)| ==> Fields(row)[i] != ""
  }

  /** The column renaming of `cleanArray`: every value is carried over unchanged. */
  function Rename(r: RawRecord): Row
    requires Complete(r)
  {
    Row(r.blockchain.s, r.network.s, r.tokenId.s, r.ethAddress.s, r.p2pkh.s, r.p2wpkh.s,
        r.p2shP2wpkh.s, r.p2tr.s, r.p2wsh.s, r.p2sh.s)
  }

  /** The record a row was renamed from. */
  function Restore(row: Row): RawRecord {
    RawRecord(Str(row.blockchain), Str(row.network), Str(row.tokenId), Str(row.ethAddress),
              Str(row.btcP2pkh), Str(row.btcP2wpkh), Str(row.btcP2shP2wpkh), Str(row.btcP2tr),
              Str(row.btcP2wsh), Str(row.btcP2sh))
  }

  /** `cleanArray`: the complete records, renamed, in their original order. */
  function Clean(records: seq<RawRecord>): (out: seq<Row>)
    ensures |out| <= |records|
    ensures forall i :: 0 <= i < |out| ==> Filled(out[i])
  {
    if records == [] then []
    else (if Complete(records[0]) then [Rename(records[0])] else []) + Clean(records[1..])
  }

  /** The number of records `cleanArray` rejects. */
  function Rejected(records: seq<RawRecord>): nat {
    if records == [] then 0
    else (if Complete(records[0]) then 0 else 1) + Rejected(records[1..])
  }

  // ---------------------------------------------------------------- cleaning properties

  /** A record is kept exactly when every one of its values is present (all or nothing). */
  lemma CompleteIffEveryValuePresent(r: RawRecord)
    ensures Complete(r) <==> forall v :: v in Values(r) ==> Present(v)
  {
    if forall v :: v in Values(r) ==> Present(v) {
      assert Values(r)[0] == r.blockchain && Values(r)[9] == r.p2sh;
    }
  }

  /** Renaming loses nothing: a kept record can be rebuilt from its row, and back. */
  lemma RenameRoundTrip(r: RawRecord, row: Row)
    ensures Complete(r) ==> Restore(Rename(r)) == r
    ensures Filled(row) <==> Complete(Restore(row))
    ensures Filled(row) ==> Rename(Restore(row)) == row
  {
    var f := Fields(row);
    if Filled(row) {
      assert f[0] != "" && f[1] != "" && f[2] != "" && f[3] != "" && f[4] != "";
      assert f[5] != "" && f[6] != "" && f[7] != "" && f[8] != "" && f[9] != "";
    }
  }

  /** Cleaning works record by record: cleaning a concatenation concatenates the cleaned parts. */
  lemma {:induction false} CleanAppend(a: seq<RawRecord>, b: seq<RawRecord>)
    ensures Clean(a + b) == Clean(a) + Clean(b)
    ensures Rejected(a + b) == Rejected(a) + Rejected(b)
    decreases |a|
  {
    if a == [] {
      assert a + b == b;
    } else {
      CleanAppend(a[1..], b);
      assert (a + b)[0] == a[0] && (a + b)[1..] == a[1..] + b;
    }
  }

  /** N records of which K are incomplete clean to exactly N - K rows. */
  lemma {:induction false} CleanCount(records: seq<RawRecord>)
    ensures |Clean(records)| == |records| - Rejected(records)
  {
    if records != [] {
      CleanCount(records[1..]);
    }
  }

  /** When every record is complete, cleaning only renames: row i is record i renamed. */
  lemma {:induction false} CleanKeepsCompleteRecords(records: seq<RawRecord>)
    requires forall i :: 0 <= i < |records| ==> Complete(records[i])
    ensures |Clean(records)| == |records|
    ensures forall i :: 0 <= i < |records| ==> Clean(records)[i] == Rename(records[i])
  {
    if records != [] {
      CleanKeepsCompleteRecords(records[1..]);
      forall i | 0 <= i < |records| ensures Clean(records)[i] == Rename(records[i]) {
        if i > 0 {
          assert Clean(records)[i] == Clean(records[1..])[i - 1];
        }
      }
    }
  }

  /** Every row that cleaning emits is the renaming of some complete input record. */
  lemma {:induction false} CleanRowsComeFromRecords(records: seq<RawRecord>, i: nat)
    requires i < |Clean(records)|
    ensures exists j :: 0 <= j < |records| && Complete(records[j]) && Clean(records)[i] == Rename(records[j])
  {
    if Complete(records[0]) && i == 0 {
      assert Clean(records)[0] == Rename(records[0]);
    } else {
      var k := if Complete(records[0]) then i - 1 else i;
      assert Clean(records)[i] == Clean(records[1..])[k];
      CleanRowsComeFromRecords(records[1..], k);
      var j :| 0 <= j < |records[1..]| && Complete(records[1..][j]) && Clean(records[1..])[k] == Rename(records[1..][j]);
      assert records[j + 1] == records[1..][j];
    }
  }

  // ---------------------------------------------------------------- the PKP table

  const PkpColumns: seq<string> :=
    ["blockchain", "network", "token_id", "eth_address", "btc_p2pkh", "btc_p2wpkh",
     "btc_p2shp2wpkh", "btc_p2tr", "btc_p2wsh", "btc_p2sh"]

  /** The fixed header line "blockchain,network,token_id,…,btc_p2wsh,btc_p2sh". */
  const PkpHeader: string := Join(PkpColumns, ',')

  /** One row's line: its ten values joined by commas, without quoting. */
  function Line(row: Row): string {
    Join(Fields(row), ',')
  }

  function Lines(rows: seq<Row>): (r: seq<string>)
    ensures |r| == |rows|
    ensures forall i :: 0 <= i < |rows| ==> r[i] == Line(rows[i])
  {
    if rows == [] then [] else [Line(rows[0])] + Lines(rows[1..])
  }

  /** `convertToCSV`: the header, a newline, then the row lines separated by newlines. */
  function ToCsv(rows: seq<Row>): string {
    PkpHeader + "\n" + Join(Lines(rows), '\n')
  }

  /** No value of the row contains `c`. */
  predicate Avoids(row: Row, c: char) {
    forall i :: 0 <= i < |Fields(row)| ==> c !in Fields(row)[i]
  }

  /** Neither separator occurs in a column name, so the header splits back into the ten columns. */
  lemma PkpHeaderColumns()
    ensures Split(PkpHeader, ',') == PkpColumns
    ensures '\n' !in PkpHeader
  {
    ColumnNamesPlain();
    SplitJoin(PkpColumns, ',');
    JoinAvoids(PkpColumns, ',', '\n');
  }

  lemma ColumnNamesPlain()
    ensures forall i :: 0 <= i < |PkpColumns| ==> ',' !in PkpColumns[i] && '\n' !in PkpColumns[i]
  {
  }

  /** With no rows the table is the header and one newline. */
  lemma ToCsvEmpty()
    ensures ToCsv([]) == PkpHeader + "\n"
  {
  }

  /** A line splits back into the row's ten values when none holds a comma. */
  lemma LineFields(row: Row)
    requires Avoids(row, ',')
    ensures Split(Line(row), ',') == Fields(row)
  {
    SplitJoin(Fields(row), ',');
  }

  /** Whatever the rows hold, the first line of the table is the header. */
  lemma ToCsvStartsWithHeader(rows: seq<Row>)
    ensures Split(ToCsv(rows), '\n')[0] == PkpHeader
  {
    PkpHeaderColumns();
    SplitAfterFirstPiece(PkpHeader, Join(Lines(rows), '\n'), '\n');
  }

  /**
   * When no value holds a newline, the table's lines are the header and then
   * one line per row in order; with no rows, the header and one empty line.
   */
  lemma ToCsvLines(rows: seq<Row>)
    requires forall i :: 0 <= i < |rows| ==> Avoids(rows[i], '\n')
    ensures Split(ToCsv(rows), '\n') == [PkpHeader] + (if rows == [] then [""] else Lines(rows))
  {
    var lines := Lines(rows);
    forall i | 0 <= i < |lines| ensures '\n' !in lines[i] {
      JoinAvoids(Fields(rows[i]), ',', '\n');
    }
    assert ToCsv(rows) == PkpHeader + ['\n'] + Join(lines, '\n');
    PkpHeaderColumns();
    SplitAfterFirstPiece(PkpHeader, Join(lines, '\n'), '\n');
    if rows != [] {
      SplitJoin(lines, '\n');
    }
  }

  // ---------------------------------------------------------------- the blocks table

  const BlocksHeader: string := "block_type,block_number"

  /**
   * The table of scanned block numbers `scan` builds: the header line, then
   * `start,<startBlock>` and `end,<endBlock>`, separated by newlines and with
   * no newline at the end.
   */
  function BlocksCsv(startBlock: nat, endBlock: nat): string {
    Join([BlocksHeader, "start," + NatToString(startBlock), "end," + NatToString(endBlock)], '\n')
  }

  /** Reads the start and end block back from a blocks table, as a reader of the table would. */
  function ReadBlocks(csv: string): Option<(nat, nat)> {
    var lines := Split(csv, '\n');
    if |lines| != 3 || lines[0] != BlocksHeader then None
    else
      var first, second := Split(lines[1], ','), Split(lines[2], ',');
      if |first| != 2 || first[0] != "start" || |second| != 2 || second[0] != "end" then None
      else
        match (ParseNat(first[1]), ParseNat(second[1]))
        case (Some(s), Some(e)) => Some((s, e))
        case _ => None
  }

  /** The blocks table is read back as exactly the start and end block it was written with. */
  lemma BlocksRoundTrip(startBlock: nat, endBlock: nat)
    ensures ReadBlocks(BlocksCsv(startBlock, endBlock)) == Some((startBlock, endBlock))
  {
    var s, e := NatToString(startBlock), NatToString(endBlock);
    var lines := [BlocksHeader, "start," + s, "end," + e];
    assert Split(BlocksCsv(startBlock, endBlock), '\n') == lines by {
      DecimalHasNoSeparators(startBlock);
      DecimalHasNoSeparators(endBlock);
      SplitJoin(lines, '\n');
    }
    assert Split(lines[1], ',') == ["start", s] by {
      assert lines[1] == "start" + "," + s;
      LabelledNumber("start", startBlock);
    }
    assert Split(lines[2], ',') == ["end", e] by {
      assert lines[2] == "end" + "," + e;
      LabelledNumber("end", endBlock);
    }
    NatToStringRoundTrip(startBlock);
    NatToStringRoundTrip(endBlock);
  }

  /** A name, a comma and a decimal number split back into the name and the number. */
  lemma LabelledNumber(name: string, n: nat)
    requires ',' !in name
    ensures Split(name + "," + NatToString(n), ',') == [name, NatToString(n)]
  {
    DecimalHasNoSeparators(n);
    SplitAfterFirstPiece(name, NatToString(n), ',');
    SplitWithoutSeparator(NatToString(n), ',');
  }
}

=== FILE: text.dfy ===
/**
 * The JavaScript string operations the exporter relies on: `startsWith`,
 * `split` on a one-character separator, `join`, and the decimal rendering of
 * a non-negative integer that template strings and `BigNumber.toString()`
 * produce.
 */
module Text {
  import opened Outcomes

  /** `s.startsWith(prefix)`. */
  predicate StartsWith(s: string, prefix: string) {
    |prefix| <= |s| && s[..|prefix|] == prefix
  }

  /**
   * `s.split(c)`: the pieces between occurrences of `c`. Like JavaScript it
   * never returns an empty array: the empty string splits into one empty piece.
   */
  function Split(s: string, c: char): (r: seq<string>)
    ensures |r| >= 1
    decreases |s|
  {
    if s == [] then [[]]
    else
      var rest := Split(s[1..], c);
      if s[0] == c then [[]] + rest
      else [[s[0]] + rest[0]] + rest[1..]
  }

  /** `parts.join(c)`: an empty array joins to the empty string. */
  function Join(parts: seq<string>, c: char): string
    decreases |parts|
  {
    if |parts| == 0 then []
    else if |parts| == 1 then parts[0]
    else parts[0] + [c] + Join(parts[1..], c)
  }

  /** Everything from the first occurrence of `c` on (empty when `c` does not occur). */
  function FromFirst(s: string, c: char): string
    decreases |s|
  {
    if s == [] then []
    else if s[0] == c then s
    else FromFirst(s[1..], c)
  }

  // ---------------------------------------------------------------- split and join

  lemma {:induction false} SplitWithoutSeparator(a: string, c: char)
    requires c !in a
    ensures Split(a, c) == [a]
    decreases |a|
  {
    if a != [] {
      assert c !in a[1..];
      SplitWithoutSeparator(a[1..], c);
      assert [a[0]] + a[1..] == a;
    }
  }

  /** A separator after a separator-free prefix ends exactly the first piece. */
  lemma {:induction false} SplitAfterFirstPiece(a: string, b: string, c: char)
    requires c !in a
    ensures Split(a + [c] + b, c) == [a] + Split(b, c)
    decreases |a|
  {
    var s := a + [c] + b;
    if a == [] {
      assert s[0] == c && s[1..] == b;
    } else {
      assert s[0] == a[0] && s[1..] == a[1..] + [c] + b;
      assert c !in a[1..];
      SplitAfterFirstPiece(a[1..], b, c);
      assert [a[0]] + a[1..] == a;
    }
  }

  /** Splitting a join of separator-free pieces recovers the pieces. */
  lemma {:induction false} SplitJoin(parts: seq<string>, c: char)
    requires |parts| >= 1
    requires forall i :: 0 <= i < |parts| ==> c !in parts[i]
    ensures Split(Join(parts, c), c) == parts
    decreases |parts|
  {
    if |parts| == 1 {
      SplitWithoutSeparator(parts[0], c);
    } else {
      SplitJoin(parts[1..], c);
      SplitAfterFirstPiece(parts[0], Join(parts[1..], c), c);
      assert [parts[0]] + parts[1..] == parts;
    }
  }

  /** Joining the pieces of a split gives back the original string. */
  lemma {:induction false} JoinSplit(s: string, c: char)
    ensures Join(Split(s, c), c) == s
    decreases |s|
  {
    if s != [] {
      JoinSplit(s[1..], c);
      var rest := Split(s[1..], c);
      if s[0] == c {
        assert Split(s, c) == [[]] + rest;
        assert ([[]] + rest)[1..] == rest;
        assert [c] + s[1..] == s;
      } else {
        var parts := Split(s, c);
        assert parts == [[s[0]] + rest[0]] + rest[1..];
        if |rest| == 1 {
          assert [s[0]] + s[1..] == s;
        } else {
          assert parts[1..] == rest[1..];
          assert Join(rest, c) == rest[0] + [c] + Join(rest[1..], c);
          assert [s[0]] + s[1..] == s;
        }
      }
    }
  }

  /** A character other than the separator occurs in a join only if it occurs in a piece. */
  lemma {:induction false} JoinAvoids(parts: seq<string>, c: char, d: char)
    requires c != d
    requires forall i :: 0 <= i < |parts| ==> d !in parts[i]
    ensures d !in Join(parts, c)
    decreases |parts|
  {
    if |parts| > 1 {
      JoinAvoids(parts[1..], c, d);
    }
  }

  /** The first piece of a split followed by what starts at the first separator is the whole string. */
  lemma {:induction false} FirstPieceAndRemainder(s: string, c: char)
    ensures Split(s, c)[0] + FromFirst(s, c) == s
    decreases |s|
  {
    if s != [] && s[0] != c {
      var rest := Split(s[1..], c);
      FirstPieceAndRemainder(s[1..], c);
      assert Split(s, c)[0] == [s[0]] + rest[0];
      assert FromFirst(s, c) == FromFirst(s[1..], c);
      Regroup([s[0]], rest[0], FromFirst(s[1..], c));
      assert [s[0]] + s[1..] == s;
    }
  }

  lemma Regroup<T>(a: seq<T>, b: seq<T>, c: seq<T>)
    ensures (a + b) + c == a + (b + c)
  {
  }

  /** What starts at the first separator is the separator and the later pieces joined, or nothing. */
  lemma {:induction false} RemainderIsLaterPieces(s: string, c: char)
    ensures |Split(s, c)| == 1 ==> FromFirst(s, c) == []
    ensures |Split(s, c)| > 1 ==> FromFirst(s, c) == [c] + Join(Split(s, c)[1..], c)
    decreases |s|
  {
    if s != [] {
      var parts, rest := Split(s, c), Split(s[1..], c);
      if s[0] == c {
        JoinSplit(s[1..], c);
        assert parts[1..] == rest;
        assert s == [c] + s[1..];
      } else {
        RemainderIsLaterPieces(s[1..], c);
        assert parts[1..] == rest[1..];
      }
    }
  }

  /** No piece of a split holds the separator. */
  lemma {:induction false} SplitPiecesAvoid(s: string, c: char)
    ensures forall i :: 0 <= i < |Split(s, c)| ==> c !in Split(s, c)[i]
    decreases |s|
  {
    if s != [] {
      SplitPiecesAvoid(s[1..], c);
      var r, rest := Split(s, c), Split(s[1..], c);
      if s[0] == c {
        assert r == [[]] + rest;
        forall i | 0 <= i < |r| ensures c !in r[i] {
          if i > 0 {
            assert r[i] == rest[i - 1];
          }
        }
      } else {
        assert r == [[s[0]] + rest[0]] + rest[1..];
        forall i | 0 <= i < |r| ensures c !in r[i] {
          if i > 0 {
            assert r[i] == rest[i];
          }
        }
      }
    }
  }

  /** The first separator of `a + b` lies in `b` when `a` holds none. */
  lemma {:induction false} FromFirstSkips(a: string, b: string, c: char)
    requires c !in a
    ensures FromFirst(a + b, c) == FromFirst(b, c)
    decreases |a|
  {
    if a != [] {
      FromFirstSkips(a[1..], b, c);
      assert (a + b)[1..] == a[1..] + b;
    } else {
      assert a + b == b;
    }
  }

  // ---------------------------------------------------------------- decimal numbers

  predicate IsDigit(ch: char) {
    '0' <= ch <= '9'
  }

  function DigitChar(d: nat): (ch: char)
    requires d < 10
    ensures IsDigit(ch) && ch as int - '0' as int == d
  {
    ('0' as int + d) as char
  }

  /** The decimal text of `n`, as `${n}` or `n.toString()` renders a non-negative integer. */
  function NatToString(n: nat): (r: string)
    ensures |r| >= 1
    ensures forall i :: 0 <= i < |r| ==> IsDigit(r[i])
  {
    if n < 10 then [DigitChar(n)] else NatToString(n / 10) + [DigitChar(n % 10)]
  }

  /** The value of a string of decimal digits. */
  function DigitsValue(s: string): nat
    requires forall i :: 0 <= i < |s| ==> IsDigit(s[i])
    decreases |s|
  {
    if s == [] then 0
    else
      assert IsDigit(s[|s| - 1]);
      DigitsValue(s[..|s| - 1]) * 10 + (s[|s| - 1] as int - '0' as int)
  }

  /** Reads a non-empty string of decimal digits; anything else is rejected. */
  function ParseNat(s: string): Option<nat> {
    if s != [] && forall i :: 0 <= i < |s| ==> IsDigit(s[i]) then Some(DigitsValue(s)) else None
  }

  lemma {:induction false} NatToStringRoundTrip(n: nat)
    ensures ParseNat(NatToString(n)) == Some(n)
  {
    DigitsOfNatToString(n);
  }

  lemma {:induction false} DigitsOfNatToString(n: nat)
    ensures DigitsValue(NatToString(n)) == n
  {
    if n >= 10 {
      DigitsOfNatToString(n / 10);
      var r := NatToString(n);
      assert r[..|r| - 1] == NatToString(n / 10);
    }
  }

  /** Decimal text never contains a separator used by the exported tables. */
  lemma DecimalHasNoSeparators(n: nat)
    ensures ',' !in NatToString(n) && '\n' !in NatToString(n)
  {
  }
}

=== FILE: wallet_report.dfy ===
/**
 * The wallet report `callGeniusAPI` builds: wallet rows are fetched page by
 * page (1000 rows per page, by offset) until a page comes back short or a
 * request fails, each row is tagged with its key type, and the rows become a
 * CSV table.
 */
module WalletReport {
  import opened Outcomes
  import opened Text

  /** Rows per page, the `limit` of every request. */
  const BatchSize: nat := 1000

  /**
   * One row of the indexer's wallet report. `total_usd_value` is carried as
   * the text it prints as.
   */
  datatype Wallet = Wallet(walletAddress: string, totalUsdValue: string)

  /** A row with the key type added, as `{ ...item, key_type }`. */
  datatype TaggedWallet = TaggedWallet(walletAddress: string, totalUsdValue: string, keyType: string)

  /**
   * The indexer: the page at an offset, or `None` when the request throws,
   * the body is not JSON or its `status` is not "success".
   */
  type PageFetch = nat -> Option<seq<Wallet>>

  /** The k-th page, requested at offset `k * BatchSize`. */
  function Page(fetch: PageFetch, k: nat): Option<seq<Wallet>> {
    fetch(k * BatchSize)
  }

  /** After page k the loop stops: the request failed or the page was short. */
  predicate Stops(fetch: PageFetch, k: nat) {
    Page(fetch, k).None? || |Page(fetch, k).value| < BatchSize
  }

  /** Page k came back full, so the loop asks for page k + 1. */
  predicate Full(fetch: PageFetch, k: nat) {
    !Stops(fetch, k)
  }

  /**
   * The rows collected from page k on. `last` is a page at which the loop is
   * known to stop; it bounds the recursion and does not change the result
   * (`CollectedIgnoresBound`).
   */
  function Collected(fetch: PageFetch, k: nat, last: nat): seq<Wallet>
    requires k <= last && Stops(fetch, last)
    decreases last - k
  {
    match Page(fetch, k)
    case None => []
    case Some(data) => if |data| < BatchSize then data else data + Collected(fetch, k + 1, last)
  }

  /** Pages k to n - 1 one after the other; each of them came back. */
  function PagesFrom(fetch: PageFetch, k: nat, n: nat): seq<Wallet>
    requires k <= n
    requires forall j :: k <= j < n ==> Full(fetch, j)
    decreases n - k
  {
    if k == n then [] else assert Full(fetch, k); Page(fetch, k).value + PagesFrom(fetch, k + 1, n)
  }

  /** The rows of the stopping page: a short page is kept, a failed one adds nothing. */
  function LastPage(fetch: PageFetch, n: nat): seq<Wallet> {
    if Page(fetch, n).Some? then Page(fetch, n).value else []
  }

  // ---------------------------------------------------------------- key type and table

  /** Addresses written "0x…" hold secp256k1 keys; every other address an ed25519 key. */
  function KeyType(address: string): (t: string)
    ensures t == "secp256k1" <==> StartsWith(address, "0x")
    ensures t == "ed25519" <==> !StartsWith(address, "0x")
  {
    if StartsWith(address, "0x") then "secp256k1" else "ed25519"
  }

  function Tag(w: Wallet): TaggedWallet {
    TaggedWallet(w.walletAddress, w.totalUsdValue, KeyType(w.walletAddress))
  }

  /** Every row keeps its address and value, in order, and gains the key type of its address. */
  function TagAll(ws: seq<Wallet>): (r: seq<TaggedWallet>)
    ensures |r| == |ws|
    ensures forall i :: 0 <= i < |ws| ==>
      && r[i].walletAddress == ws[i].walletAddress
      && r[i].totalUsdValue == ws[i].totalUsdValue
      && (r[i].keyType == "secp256k1" <==> StartsWith(ws[i].walletAddress, "0x"))
      && (r[i].keyType == "ed25519" <==> !StartsWith(ws[i].walletAddress, "0x"))
  {
    if ws == [] then [] else [Tag(ws[0])] + TagAll(ws[1..])
  }

  const WalletColumns: seq<string> := ["wallet_address", "total_usd_value", "key_type"]

  /** The header line "wallet_address,total_usd_value,key_type". */
  const WalletHeader: string := Join(WalletColumns, ',')

  function WalletFields(t: TaggedWallet): seq<string> {
    [t.walletAddress, t.totalUsdValue, t.keyType]
  }

  /** One row's line: address, value and key type separated by commas, without quoting. */
  function WalletLine(t: TaggedWallet): string {
    Join(WalletFields(t), ',')
  }

  function WalletLines(ts: seq<TaggedWallet>): (r: seq<string>)
    ensures |r| == |ts|
    ensures forall i :: 0 <= i < |ts| ==> r[i] == WalletLine(ts[i])
  {
    if ts == [] then [] else [WalletLine(ts[0])] + WalletLines(ts[1..])
  }

  /** The header and then one line per row, separated by newlines, no newline at the end. */
  function WalletCsv(ws: seq<Wallet>): string {
    Join([WalletHeader] + WalletLines(TagAll(ws)), '\n')
  }

  // ---------------------------------------------------------------- the paging loop

  /**
   * `callGeniusAPI`. `requests` (ghost) are the offsets asked for, in order.
   * `last` is any page at which the loop stops; without one the source loops
   * for ever.
   */
  method CallGeniusApi(fetch: PageFetch, ghost last: nat) returns (csv: string, ghost requests: seq<nat>)
    requires Stops(fetch, last)
    ensures csv == WalletCsv(Collected(fetch, 0, last))
    ensures |requests| >= 1
    ensures forall i :: 0 <= i < |requests| ==> requests[i] == i * BatchSize
    ensures forall i :: 0 <= i < |requests| - 1 ==> Full(fetch, i)
    ensures Stops(fetch, |requests| - 1)
  {
    var allData: seq<Wallet> := [];
    var offset: nat := 0;
    var hasMore := true;
    ghost var k: nat := 0;
    requests := [];
    while hasMore
      invariant k <= last
      invariant offset == k * BatchSize
      invariant hasMore ==> allData + Collected(fetch, k, last) == Collected(fetch, 0, last)
      invariant !hasMore ==> allData == Collected(fetch, 0, last)
      invariant |requests| == if hasMore then k else k + 1
      invariant forall i :: 0 <= i < |requests| ==> requests[i] == i * BatchSize
      invariant forall i :: 0 <= i < k ==> Full(fetch, i)
      invariant !hasMore ==> Stops(fetch, k)
      decreases last - k, hasMore
    {
      requests := requests + [offset];
      var response := fetch(offset);
      assert response == Page(fetch, k);
      if response.None? {
        hasMore := false;
        assert allData + [] == allData;
      } else {
        var data := response.value;
        if |data| < BatchSize {
          allData := allData + data;
          hasMore := false;
        } else {
          assert allData + data + Collected(fetch, k + 1, last) == Collected(fetch, 0, last) by {
            Regroup(allData, data, Collected(fetch, k + 1, last));
          }
          allData := allData + data;
          offset := offset + BatchSize;
          k := k + 1;
        }
      }
    }
    csv := WalletCsv(allData);
  }

  // ---------------------------------------------------------------- properties

  /** Which stopping page bounds the recursion does not matter. */
  lemma {:induction false} CollectedIgnoresBound(fetch: PageFetch, k: nat, last1: nat, last2: nat)
    requires k <= last1 && Stops(fetch, last1)
    requires k <= last2 && Stops(fetch, last2)
    ensures Collected(fetch, k, last1) == Collected(fetch, k, last2)
    decreases last1 - k
  {
    if Full(fetch, k) {
      CollectedIgnoresBound(fetch, k + 1, last1, last2);
    }
  }

  /**
   * When pages k to n - 1 come back full and page n stops the loop, the rows
   * collected are those pages in order followed by what page n returned.
   */
  lemma {:induction false} CollectedIsPages(fetch: PageFetch, k: nat, n: nat, last: nat)
    requires k <= n <= last && Stops(fetch, last)
    requires forall j :: k <= j < n ==> Full(fetch, j)
    requires Stops(fetch, n)
    ensures Collected(fetch, k, last) == PagesFrom(fetch, k, n) + LastPage(fetch, n)
    decreases n - k
  {
    if k < n {
      assert Full(fetch, k);
      CollectedIsPages(fetch, k + 1, n, last);
      Regroup(Page(fetch, k).value, PagesFrom(fetch, k + 1, n), LastPage(fetch, n));
    }
  }

  /** A failed request keeps every row of the pages before it and ends the report there. */
  lemma FailureKeepsEarlierPages(fetch: PageFetch, n: nat)
    requires forall j :: 0 <= j < n ==> Full(fetch, j)
    requires Page(fetch, n).None?
    ensures Collected(fetch, 0, n) == PagesFrom(fetch, 0, n)
  {
    CollectedIsPages(fetch, 0, n, n);
    assert PagesFrom(fetch, 0, n) + [] == PagesFrom(fetch, 0, n);
  }

  /** With no rows the table is the header alone, without a newline. */
  lemma WalletCsvEmpty()
    ensures WalletCsv([]) == WalletHeader
  {
  }

  /** No value of the row contains `c`. */
  predicate WalletAvoids(w: Wallet, c: char) {
    c !in w.walletAddress && c !in w.totalUsdValue
  }

  lemma KeyTypesPlain(address: string)
    ensures ',' !in KeyType(address) && '\n' !in KeyType(address)
  {
  }

  lemma TaggedLineAvoids(t: TaggedWallet, c: char)
    requires c != ','
    requires c !in t.walletAddress && c !in t.totalUsdValue && c !in t.keyType
    ensures c !in WalletLine(t)
  {
    JoinAvoids(WalletFields(t), ',', c);
  }

  /**
   * When no value holds a newline, the table's lines are the header and then
   * one line per row, in the order the rows were collected.
   */
  lemma WalletCsvLines(ws: seq<Wallet>)
    requires forall i :: 0 <= i < |ws| ==> WalletAvoids(ws[i], '\n')
    ensures Split(WalletCsv(ws), '\n') == [WalletHeader] + WalletLines(TagAll(ws))
  {
    var rows := WalletLines(TagAll(ws));
    assert '\n' !in WalletHeader by {
      WalletHeaderSingleLine();
    }
    assert forall i :: 0 <= i < |rows| ==> '\n' !in rows[i] by {
      RowLinesAvoidNewline(ws);
    }
    SplitHeaderAndRows(WalletHeader, rows);
  }

  lemma SplitHeaderAndRows(header: string, rows: seq<string>)
    requires '\n' !in header
    requires forall i :: 0 <= i < |rows| ==> '\n' !in rows[i]
    ensures Split(Join([header] + rows, '\n'), '\n') == [header] + rows
  {
    var lines := [header] + rows;
    forall i | 0 <= i < |lines| ensures '\n' !in lines[i] {
      if i > 0 {
        assert lines[i] == rows[i - 1];
      }
    }
    SplitJoin(lines, '\n');
  }

  lemma RowLinesAvoidNewline(ws: seq<Wallet>)
    requires forall i :: 0 <= i < |ws| ==> WalletAvoids(ws[i], '\n')
    ensures forall i :: 0 <= i < |ws| ==> '\n' !in WalletLines(TagAll(ws))[i]
  {
    var ts := TagAll(ws);
    forall i | 0 <= i < |ws| ensures '\n' !in WalletLines(ts)[i] {
      assert ts[i].keyType == KeyType(ws[i].walletAddress);
      KeyTypesPlain(ws[i].walletAddress);
      TaggedLineAvoids(ts[i], '\n');
    }
  }

  /** When no value holds a comma, a row's line splits back into address, value and key type. */
  lemma WalletLineFields(w: Wallet)
    requires WalletAvoids(w, ',')
    ensures Split(WalletLine(Tag(w)), ',') == [w.walletAddress, w.totalUsdValue, KeyType(w.walletAddress)]
  {
    KeyTypesPlain(w.walletAddress);
    SplitJoin(WalletFields(Tag(w)), ',');
  }

  /** The header splits back into its three column names. */
  lemma WalletHeaderColumns()
    ensures Split(WalletHeader, ',') == WalletColumns
  {
    WalletColumnNamesPlain();
    SplitJoin(WalletColumns, ',');
  }

  lemma WalletHeaderSingleLine()
    ensures '\n' !in WalletHeader
  {
    WalletColumnNamesPlain();
    JoinAvoids(WalletColumns, ',', '\n');
  }

  lemma WalletColumnNamesPlain()
    ensures forall i :: 0 <= i < |WalletColumns| ==> ',' !in WalletColumns[i] && '\n' !in WalletColumns[i]
  {
  }

  /** Two full pages and a failed third: the report holds the rows of the first two, in order. */
  lemma ExampleTwoFullPages(fetch: PageFetch)
    requires Full(fetch, 0) && Full(fetch, 1)
    requires Page(fetch, 2).None?
    ensures Collected(fetch, 0, 2) == Page(fetch, 0).value + Page(fetch, 1).value
  {
    FailureKeepsEarlierPages(fetch, 2);
    assert PagesFrom(fetch, 2, 2) == [];
  }
}

=== FILE: wk_header.dfy ===
/**
 * The header rewrite `uploadWKTableData` applies to each wrapped-key table
 * it downloads before pushing it on: the text is split into lines, the first
 * line is overwritten with the table's own header and the lines are joined
 * again.
 */
module WkHeader {
  import opened Text

  /** The header every wrapped-key table is pushed with. */
  const WkHeader: string := "network,pkp_address,public_key"

  /**
   * The rewritten table: the new header, then everything from the first
   * newline of the downloaded text on (nothing when it has no newline).
   */
  function WithHeader(content: string): string {
    WkHeader + FromFirst(content, '\n')
  }

  /**
   * `lines = csvContent.split("\n"); lines[0] = newHeaders; lines.join("\n")`,
   * with the lines held in an array that is updated in place.
   */
  method RewriteHeader(content: string) returns (modified: string)
    ensures modified == WithHeader(content)
  {
    var parts := Split(content, '\n');
    var lines := new string[|parts|](i requires 0 <= i < |parts| => parts[i]);
    lines[0] := WkHeader;
    modified := Join(lines[..], '\n');
    assert lines[..] == [WkHeader] + parts[1..];
    RemainderIsLaterPieces(content, '\n');
    if |parts| > 1 {
      assert modified == WkHeader + ['\n'] + Join(parts[1..], '\n');
      Regroup(WkHeader, ['\n'], Join(parts[1..], '\n'));
    }
  }

  // ---------------------------------------------------------------- properties

  lemma WkHeaderSingleLine()
    ensures '\n' !in WkHeader
  {
  }

  /**
   * The rewritten table has the same number of lines: the first is the new
   * header and every later line is the downloaded one, unchanged and in order.
   */
  lemma RewriteKeepsLaterLines(content: string)
    ensures Split(WithHeader(content), '\n') == [WkHeader] + Split(content, '\n')[1..]
  {
    var parts := Split(content, '\n');
    WkHeaderSingleLine();
    RemainderIsLaterPieces(content, '\n');
    if |parts| == 1 {
      assert WithHeader(content) == WkHeader;
      SplitWithoutSeparator(WkHeader, '\n');
    } else {
      var rest := parts[1..];
      assert WithHeader(content) == WkHeader + ['\n'] + Join(rest, '\n') by {
        Regroup(WkHeader, ['\n'], Join(rest, '\n'));
      }
      SplitAfterFirstPiece(WkHeader, Join(rest, '\n'), '\n');
      assert forall i :: 0 <= i < |rest| ==> '\n' !in rest[i] by {
        SplitPiecesAvoid(content, '\n');
      }
      SplitJoin(rest, '\n');
    }
  }

  /** Rewriting an already rewritten table changes nothing. */
  lemma RewriteIdempotent(content: string)
    ensures WithHeader(WithHeader(content)) == WithHeader(content)
  {
    var tail := FromFirst(content, '\n');
    WkHeaderSingleLine();
    FromFirstSkips(WkHeader, tail, '\n');
    RemainderIsLaterPieces(content, '\n');
  }

  /** A download without a newline, the empty one included, becomes the header alone. */
  lemma SingleLineBecomesHeader(content: string)
    requires '\n' !in content
    ensures WithHeader(content) == WkHeader
  {
    SplitWithoutSeparator(content, '\n');
    RemainderIsLaterPieces(content, '\n');
  }
}
